=== FILE: README.md ===
# Hospital queue: the queue state machine in Dafny

This project models the queue engine of a Django hospital queue application.
Patients join the queue for a service and are bound to a counter of that service.
Staff members, each manning one counter, serve the next patient, skip the patient being served, announce a patient, and change their counter's status.
A staff dashboard polls the queue data of its counter.

The store is one immutable `State`:
- services, counters, patients and staff are maps keyed by primary key;
- the live `QueueEntry` table is a sequence in insertion order;
- the `QueueHistory` table is an append-only sequence;
- a logical clock stands for `created_at` stamps.

Every view is a pure function from a state and the request's inputs to a `Step`: a reply or an error, together with the next state.
The next state can differ from the old one even on error: `announce_patient` saves the raised count before it fails.
The random draws (`random.randint(1000, 9999)` in `join_queue`, `random.choices` in `generate_queue_id`) are parameters of a constrained type.

Modules:
- `Models`: the entities, status choices and error values.
- `QueueIds`: the three queue-id formatters, and decoding lemmas for them.
- `Store`: the ORM queries the views make (first/last, filters, `get`).
- `Invariants`: what a well-formed store satisfies:
  - queue ids are unique;
  - each counter has at most one serving entry;
  - each patient has at most one live entry;
  - the table is in creation order;
  - links exist and one-to-one staff assignment holds.
- `Views`: the five handlers as written, and `get_queue_data`.
- `ViewsProofs`: invariant preservation, and what serving, skipping and announcing do.
- `Intended`: the redistribution and auto-skip branches as the code evidently means them.
- `Findings`: concrete stores where the as-written and intended behaviour differ.
- `System`: a store driven by a sequence of requests, both as written and corrected.

Behaviour of the code that a reader might not expect, all of it modelled as written:
- `join_queue` only considers counters whose status is `available` and takes the one with the least id; the number of patients already bound to a counter plays no part. It also marks the chosen counter busy, so a second join to a single-counter service fails (`ViewsProofs.SecondJoinFindsNoCounter`) rather than both joins succeeding.
- The break redistribution targets the least-id *available* counter of the service with a *greater* id; busy counters and counters with smaller ids are never targets.
- As written, the redistribution never runs (see Findings).
- `announce_patient` does not check that the entry is served by the caller's counter.
- `update_counter_status` refuses `closed`.
- `serve_next` archives rows with status `completed`, which is not among `QueueHistory.STATUS_CHOICES` (`served`, `skipped`). Django does not enforce choices on save, so the row is written with that status (`System.Apply` states which statuses reach history).

## Model

| member | source | states |
|---|---|---|
| Models.ParseCounterStatus | queue_app/models.py:33-42 | a stored status string reads back only as the choice stored under that name, and reads back as nothing exactly when no choice has that name |
| Models.CounterStatusNamesRoundTrip | queue_app/models.py:33-38 | each of the four counter statuses reads back as itself from its stored name |
| Models.ParseEntryStatus | queue_app/models.py:107-118 | a stored entry status reads back only as the choice stored under that name, and as nothing exactly when no choice has that name |
| Models.EntryStatusNamesRoundTrip | queue_app/models.py:107-112 | each of the four entry statuses reads back as itself |
| QueueIds.ServicePrefix | queue_app/utils.py:14 | the prefix has min(3, length) characters, each the upper-cased name character, with no lower-case letter left |
| QueueIds.ParseDecimalOfDecimal | queue_app/utils.py:15 | `str(n)` of a counter id reads back as `n` |
| QueueIds.DecimalLeadingDigit | queue_app/utils.py:15 | `str(n)` starts with '0' exactly when n is 0 |
| QueueIds.ZFill | queue_app/utils.py:15 | zfill pads on the left with zeros to the width and keeps the digits as the suffix |
| QueueIds.CounterPartRoundTrip | queue_app/utils.py:15 | the padded counter part reads back as the counter id (0 without a counter) and is three characters unless the id needs more |
| QueueIds.CounterPartInjective | queue_app/utils.py:15 | two counter parts agree exactly when they stand for the same number; no counter and counter 0 print alike |
| QueueIds.GenerateQueueId | queue_app/utils.py:13-18 | the id's length is prefix + counter part + 6 and its last four characters are the random digits |
| QueueIds.GenerateQueueIdInjective | queue_app/utils.py:13-18 | two generated ids are equal exactly when prefix, counter number and random digits agree |
| QueueIds.ViewsGenerateQueueId | queue_app/views.py:147-151 | the unpadded variant still ends in the four random digits |
| QueueIds.DecimalOfJoinSuffix | queue_app/views.py:192 | every suffix `randint(1000, 9999)` can draw prints as exactly four digits |
| QueueIds.JoinQueueId | queue_app/views.py:192 | the join id's length is prefix + counter digits + 6 and it ends in the suffix's digits |
| QueueIds.JoinQueueIdInjective | queue_app/views.py:192 | two join ids are equal exactly when the service prefix, counter and suffix agree, so services sharing three initial letters share an id space |
| QueueIds.JoinIdFormats | queue_app/views.py:192 | the join id equals the unused views.py formatter's, and equals the utils.py format exactly when the counter id is at least 100 |
| Store.FindEntry | queue_app/views.py:550 | finds the first row with the queue id, or reports that no row has it |
| Store.ServingOf | queue_app/views.py:298-301 | finds a serving row of the counter, or reports there is none |
| Store.OldestWaiting | queue_app/views.py:319-322 | finds a waiting row of the counter with the least creation stamp, or reports there is none |
| Store.FirstAvailable | queue_app/views.py:183-186 | the least-id available counter of the service, or none when the service has no available counter |
| Store.NextAvailableAbove | queue_app/views.py:368-372 | the least-id available counter of the service above the given id, or none |
| Store.PreviousBreakCounter | queue_app/views.py:508-512 | the greatest-id break counter of the service below the given id, or none |
| Store.CallerCounter | queue_app/views.py:355-356 | the session, staff row and counter lookups fail in that order, each exactly when its condition holds; a staff member manning exactly one counter always gets that counter, and the counter is the unique one they man |
| Views.Join | queue_app/views.py:154-222 | each refusal, in the view's order, happens exactly when its condition holds; an admissible join with an available counter succeeds exactly when the id built for the least-id available counter is fresh and is refused as a duplicate exactly when it is taken; success appends one waiting entry with that id at that counter, which becomes busy, and changes nothing else |
| Views.ServeNext | queue_app/views.py:289-344 | archives the counter's serving row as 'completed' (history untouched when none serves); the live table becomes the remaining rows with exactly the oldest waiting one promoted and reported, the counter busy, or the remaining rows unchanged with the counter available when nobody waits; of the counters only that counter's status field changes |
| Views.Skip | queue_app/views.py:393-444 | refuses, leaving the store unchanged, exactly when the caller's counter has no serving entry, and otherwise succeeds; it archives that entry as 'skipped' and the live table becomes the remaining rows with exactly the oldest waiting one promoted, touching the counter (set available) only when nobody waits |
| Views.SkipNext | queue_app/views.py:422-435 | promotes exactly the oldest waiting entry leaving the counter alone, or with nobody waiting leaves the rows alone and marks the counter available; nothing else changes |
| Views.CallNext | queue_app/views.py:316-339 | promotes and reports exactly the oldest waiting entry and marks the counter busy, or with nobody waiting leaves the rows alone and marks it available; only the counter's status field changes, and nothing else in the store |
| Views.RequestedStatus | queue_app/views.py:358-360 | a posted status is accepted exactly when it is available, busy or break, and names that status |
| Views.Redistribute | queue_app/views.py:367-379 | with a target (the least-id available counter of the service above the counter), exactly the counter's waiting entries are rebound to it and every other row is unchanged; with no target nothing changes |
| Views.UpdateCounterStatus | queue_app/views.py:350-388 | succeeds exactly for a manned counter and a settable status; writes that status and nothing else, so the redistribution never runs |
| Views.Announce | queue_app/views.py:543-595 | the first row with the queue id has its count raised by one and no other field or row changes; below three the reply is that count, from three on it fails with the increment kept and no history row |
| Views.AnnounceRaisesFirstMatch | queue_app/views.py:549-555 | every row's count after an announcement is its old count plus one for the first row carrying the queue id and nothing for any other row |
| Views.WaitingEntries | queue_app/views.py:500-503 | the listed entries are exactly the counter's waiting entries |
| Views.WaitingEntriesInOrder | queue_app/views.py:500-503 | in a table kept in creation order, the waiting list is oldest first |
| Views.QueueData | queue_app/views.py:483-539 | answers every staff member who mans a counter; reports the counter's status, its serving entry, its waiting patients position by position in table order with the count equal to the number of waiting entries, and, for an available counter, the greatest-id break counter of the service below it |
| ViewsProofs.QueueDataOldestFirst | queue_app/views.py:500-503 | in a table kept in creation order, of two waiting patients the dashboard lists, the one listed first joined first |
| ViewsProofs.JoinPreservesValid | queue_app/views.py:154-222 | a join keeps every store invariant |
| ViewsProofs.ServeNextPreservesValid | queue_app/views.py:289-344 | serve-next keeps every store invariant, including one serving entry per counter |
| ViewsProofs.SkipPreservesValid | queue_app/views.py:393-444 | a skip keeps every store invariant |
| ViewsProofs.UpdateCounterStatusPreservesValid | queue_app/views.py:350-388 | a status update keeps every store invariant |
| ViewsProofs.AnnouncePreservesValid | queue_app/views.py:543-595 | an announcement keeps every store invariant |
| ViewsProofs.OldestWaitingAfterRemoval | queue_app/views.py:316-322 | deleting the serving row leaves the oldest waiting entry the one the next query finds |
| ViewsProofs.ServeNextArchivesServing | queue_app/views.py:297-316 | the serving entry is written to history as 'completed' and leaves the live table; without one history is untouched |
| ViewsProofs.ServeNextPromotesOldest | queue_app/views.py:318-335 | serve-next promotes and reports exactly the oldest waiting entry and marks the counter busy |
| ViewsProofs.ServeNextEmpty | queue_app/views.py:336-340 | with nobody waiting the reply is an empty queue and the counter becomes available |
| ViewsProofs.SkipPromotesOldest | queue_app/views.py:401-430 | a skip archives the serving entry as 'skipped', promotes exactly the oldest waiting entry and leaves the counters alone |
| ViewsProofs.AnnounceBumpsOne | queue_app/views.py:549-555 | under the invariants the announced entry's count goes up by one and nothing else changes |
| ViewsProofs.SecondJoinFindsNoCounter | queue_app/views.py:183-205 | after a successful join to a service with one available counter, another patient's join finds no counter |
| ViewsProofs.QueueDataHeadIsServedNext | queue_app/views.py:483-539 | the first waiting patient the dashboard lists is the one serve-next calls |
| Intended.RedistributeMovesWaiting | queue_app/views.py:367-379 | with a target, exactly the counter's waiting entries are rebound to it and nothing else in the store changes |
| Intended.ReboundCounts | queue_app/views.py:374-379 | the counter is left with no waiting entries, the target gains exactly that many, and every other counter keeps its count |
| Intended.RedistributePreservesValid | queue_app/views.py:367-379 | redistribution keeps every store invariant |
| Intended.UpdateCounterStatusIntended | queue_app/views.py:350-388 | the status update with the break test reading the previous status; same refusals including `InvalidStatus`; on success only the counter's status changes, plus, when it enters break from another status and a target exists, the rebinding of its waiting entries; otherwise the live table is unchanged |
| Intended.UpdateIntendedMovesWaiting | queue_app/views.py:362-379 | entering break with a target moves all of the counter's waiting patients to the target, conserving the count |
| Intended.UpdateIntendedPreservesValid | queue_app/views.py:350-388 | the corrected status update keeps every store invariant |
| Intended.PromoteOldest | queue_app/views.py:570-587 | promotes exactly the oldest waiting entry of the counter and reports it, or reports nobody and changes nothing |
| Intended.AutoSkip | queue_app/views.py:557-587 | archives the entry as 'skipped' and removes it; the live table becomes the remaining rows with exactly the oldest waiting entry of its counter promoted, or the remaining rows unchanged when nobody waits; counters untouched; an entry without a counter cannot be archived |
| Intended.AnnounceIntended | queue_app/views.py:543-595 | for the first row with the queue id, below three it reports the raised count; from the third announcement on, an entry with a counter is auto-skipped: one 'skipped' row carrying the raised count is written and the entry leaves the live table |
| Intended.AnnounceAtThresholdAsWritten | queue_app/views.py:552-567 | as written, the third announcement fails, the raised count stays and history is untouched |
| Intended.AnnounceIntendedBelowThreshold | queue_app/views.py:549-595 | below three the intended handler raises exactly that entry's count, reports it, and agrees with the handler as written |
| Intended.AnnounceIntendedSkips | queue_app/views.py:555-568 | as intended, the third announcement archives the entry as skipped and removes it, and a fourth finds nothing |
| Intended.AnnounceChecked | queue_app/views.py:543-595 | announcing succeeds only for the serving entry of the caller's counter, and for that entry it always does: below three it reports the raised count, from three on it auto-skips and writes one history row |
| Intended.AutoSkipServingPreservesValid | queue_app/views.py:568-578 | auto-skipping a counter's serving entry keeps every invariant |
| Intended.AnnounceCheckedPreservesValid | queue_app/views.py:543-595 | the checked announce handler keeps every store invariant |
| Findings.BreakLeavesWaitingBehind | queue_app/views.py:362-366 | in a concrete store, going on break leaves a waiting patient at the counter although a sibling counter is available |
| Findings.BreakMovesWaitingIntended | queue_app/views.py:367-379 | in the same store, the corrected update moves that patient to the sibling |
| Findings.AutoSkipCanDoubleServe | queue_app/views.py:568-578 | in a concrete valid store, auto-skipping a waiting entry leaves its counter serving two patients |
| Findings.CheckedAnnounceRefuses | queue_app/views.py:549-555 | the checked handler refuses the same announcement and leaves the store alone |
| System.Apply | queue_app/urls.py:20-34 | each request appends at most one history row, with status 'completed' or 'skipped', and never changes services, patients, staff or the counter set |
| System.Run | queue_app/urls.py:20-34 | over any request sequence history is append-only and grows by at most one row per request |
| System.RunPreservesValid | queue_app/models.py:106-123 | every store reachable from a valid store is valid |
| System.ReachableValid | queue_app/models.py:50-62 | from a well-formed catalogue and an empty queue, every reachable store has one serving entry per counter and one live entry per patient |
| System.ApplyCorrected | queue_app/urls.py:20-34 | the corrected handlers also only append 'completed' or 'skipped' history rows |
| System.RunCorrectedPreservesValid | queue_app/views.py:350-595 | every store the corrected handlers reach from a valid store is valid |

## Left out

- HTTP method checks (`@require_POST`, the 405 reply of `join_queue` to other methods): every request is modelled as a POST.
- OTP login, page rendering, the display screen, `get_queue_status`, `calculate_wait_time` and the websocket consumer: they do not change the queue.
- Wall-clock fields (`created_at`, `skipped_at`, `completed_at`, `date`, `updated_at`): a logical clock stands for `created_at`; the others are not read by the views.
- Concurrency: each request is one atomic step; the views take no locks, so interleavings are not modelled.
- `announcement_count` and all ids are unbounded integers; the 32-bit limit of `IntegerField` and `AutoField` is not modelled.
- Upper-casing covers ASCII letters only; Unicode case mapping is not modelled.
- Column lengths are not enforced: join ids are longer than the 10-character `QueueHistory.queue_id` whenever the prefix length plus the number of digits in the counter id exceeds 4 (a service name of three or more letters at counter 10 or above, for instance), and whether that fails depends on the database.
- Replies carry the patient's phone instead of the patient's name, and `get_queue_data` reports the break counter's id instead of its name; `show_reminder` and `waiting_time` are not modelled.
- A missing or non-numeric `service_id` is one error (`ServiceIdRequired`); a non-numeric one raises inside the view in the source.
- A missing `queue_id` in `announce_patient` is modelled like an unknown one.
- `serve_next` reports a missing staff row or counter through its generic handler; the model uses the same error values as the other staff views, and the state is unchanged either way.
- Store.CallerCounter: refuses a staff member with more than one counter (`MultipleCounters`); the one-to-one field makes that unreachable in a valid store.
- Store.ServingOf: takes the first serving row in table order where the source takes the first by primary key; under the one-serving-per-counter invariant they are the same row.
- Notifications (channel-layer events) are not modelled: the views shown do not send any.

## Findings

| source | as written | input that shows it | evidently intended | confidence | as-written member | corrected member |
|---|---|---|---|---|---|---|
| queue_app/views.py:362-366 | the new status is stored before the test `counter.current_status != 'break'`, so the test is always false when entering break and the redistribution never runs | counter 1 busy with one waiting patient, counter 2 of the same service available, staff of counter 1 posts status=break | the test reads the status held before the request, and the waiting patients move to counter 2 | not executed | Findings.BreakLeavesWaitingBehind | Intended.UpdateCounterStatusIntended |
| queue_app/views.py:557-567 | the history row is built with the keyword `status`, which is not a field, and without `updated_at`, so the third announcement raises; the handler reports the error after the raised count is saved | any live entry announced a third time | the entry is archived as 'skipped', removed, and the next waiting patient promoted | not executed | Intended.AnnounceAtThresholdAsWritten | Intended.AnnounceIntended |
| queue_app/views.py:549-578 | the auto-skip acts on whatever entry the queue id names: it checks neither that the entry is serving nor that it belongs to the caller's counter | counter 1 serving A while B (announced twice) and C wait; announce B | only the caller's serving patient can be announced and auto-skipped | not executed | Findings.AutoSkipCanDoubleServe | Intended.AnnounceChecked |

=== FILE: findings.dfy ===
/** Concrete stores on which the handlers as written and as intended part
    ways. Each is a valid store, so the divergence is reachable in principle. */
module Findings {
  import opened Wrappers
  import opened Models
  import opened Store
  import opened Invariants
  import opened Views
  import opened Intended

  const General: Service := Service("General", true)
  const Operator7: Staff := Staff("op7", Operator, true)

  /** Counter 1 is busy and manned by staff 7; counter 2 of the same service
      is free; one patient waits at counter 1. */
  function BreakStore(): State {
    State(
      map[1 := General],
      map[1 := Counter("C1", 1, Busy, Some(7)), 2 := Counter("C2", 1, Available, None)],
      map["0700000001" := Patient("A", true)],
      map[7 := Operator7],
      [QueueEntry("GEN_1_1000", "0700000001", 1, Some(1), Waiting, 0, 0)],
      [],
      1)
  }

  lemma BreakStoreCounters()
    ensures CountersWellLinked(BreakStore()) && StaffOneToOne(BreakStore().counters)
  {
    assert BreakStore().counters.Keys == {1, 2};
  }

  lemma BreakStoreEntries()
    ensures TableValid(BreakStore().entries, BreakStore().clock) && EntriesWellLinked(BreakStore())
  {
  }

  lemma BreakStoreValid()
    ensures Valid(BreakStore())
  {
    BreakStoreCounters();
    BreakStoreEntries();
    assert PhonesWellFormed(BreakStore().patients) by {
      assert BreakStore().patients.Keys == {"0700000001"};
    }
  }

  lemma CallerIsCounterOne(s: State)
    requires s.counters == BreakStore().counters && s.staff == BreakStore().staff
    ensures CallerCounter(s, Some(7)) == Ok(1)
  {
    assert s.counters.Keys == {1, 2};
    assert StaffedCounters(s.counters, 7) == {1};
  }

  /** As written, putting counter 1 on break strands its waiting patient:
      the entry stays bound to a counter on break although counter 2 of the
      same service is available. */
  lemma BreakLeavesWaitingBehind()
    ensures var t := UpdateCounterStatus(BreakStore(), Some(7), "break");
      && t.result == Ok(StatusUpdated)
      && t.state.counters[1].status == Break
      && t.state.counters[2].status == Available
      && IsWaitingAt(t.state.entries[0], 1)
  {
    CallerIsCounterOne(BreakStore());
  }

  /** As intended, the same request moves the patient to counter 2. */
  lemma BreakMovesWaitingIntended()
    ensures var t := UpdateCounterStatusIntended(BreakStore(), Some(7), "break");
      && t.result == Ok(StatusUpdated)
      && t.state.counters[1].status == Break
      && IsWaitingAt(t.state.entries[0], 2)
      && WaitingCount(t.state.entries, 1) == 0
  {
    var s := BreakStore();
    CallerIsCounterOne(s);
    assert IsRedistributionTarget(s.counters, 1, 2) by {
      assert s.counters.Keys == {1, 2};
    }
    UpdateIntendedMovesWaiting(s, Some(7), 1, 2);
  }

  /** Counter 1 serves patient A while B, announced twice already, and C
      wait behind. */
  function DoubleServeStore(): State {
    State(
      map[1 := General],
      map[1 := Counter("C1", 1, Busy, Some(7))],
      map["0700000001" := Patient("A", true), "0700000002" := Patient("B", true), "0700000003" := Patient("C", true)],
      map[7 := Operator7],
      [ QueueEntry("GEN_1_1000", "0700000001", 1, Some(1), Serving, 0, 0),
        QueueEntry("GEN_1_2000", "0700000002", 1, Some(1), Waiting, 2, 1),
        QueueEntry("GEN_1_3000", "0700000003", 1, Some(1), Waiting, 0, 2)],
      [],
      3)
  }

  lemma DoubleServeIdsDistinct()
    ensures UniqueQueueIds(DoubleServeStore().entries)
    ensures OneLivePerPatient(DoubleServeStore().entries)
  {
    assert "0700000001"[9] != "0700000002"[9] && "0700000001"[9] != "0700000003"[9] && "0700000002"[9] != "0700000003"[9];
    assert "GEN_1_1000"[6] != "GEN_1_2000"[6] && "GEN_1_1000"[6] != "GEN_1_3000"[6] && "GEN_1_2000"[6] != "GEN_1_3000"[6];
  }

  lemma DoubleServeLinks()
    ensures EntriesWellLinked(DoubleServeStore())
    ensures PhonesWellFormed(DoubleServeStore().patients)
    ensures CountersWellLinked(DoubleServeStore()) && StaffOneToOne(DoubleServeStore().counters)
  {
    var s := DoubleServeStore();
    assert s.counters.Keys == {1};
    assert s.patients.Keys == {"0700000001", "0700000002", "0700000003"};
  }

  lemma DoubleServeOrder()
    ensures OnlyLiveEntries(DoubleServeStore().entries)
    ensures OneServingPerCounter(DoubleServeStore().entries)
    ensures StampsIncreasing(DoubleServeStore().entries, DoubleServeStore().clock)
  {
  }

  lemma DoubleServeStoreValid()
    ensures Valid(DoubleServeStore())
  {
    DoubleServeIdsDistinct();
    DoubleServeLinks();
    DoubleServeOrder();
    assert TableValid(DoubleServeStore().entries, DoubleServeStore().clock);
  }

  lemma DoubleServeLookups()
    ensures CallerCounter(DoubleServeStore(), Some(7)) == Ok(1)
    ensures FindEntry(DoubleServeStore().entries, "GEN_1_2000") == Some(1)
  {
    var s := DoubleServeStore();
    assert s.counters.Keys == {1};
    assert StaffedCounters(s.counters, 7) == {1};
    assert "GEN_1_1000"[6] != "GEN_1_2000"[6];
  }

  /** The store once B's third announcement has been saved. */
  function DoubleServeBumped(): State {
    var s := DoubleServeStore();
    s.(entries := s.entries[1 := s.entries[1].(announcements := 3)])
  }

  lemma AutoSkipPromotesSecond()
    ensures var t := AutoSkip(DoubleServeBumped(), 1);
      && t.result.Ok? && t.result.value.AutoSkipped?
      && t.state.entries == [DoubleServeStore().entries[0], DoubleServeStore().entries[2].(status := Serving)]
  {
    var s1 := DoubleServeBumped();
    var s2 := Archive(s1, 1, 1, "skipped");
    assert s2.entries == [s1.entries[0], s1.entries[2]];
    assert OldestWaiting(s2.entries, Some(1)) == Some(1);
  }

  /** Announcing a waiting entry for the third time auto-skips it with no
      regard to whom the counter is serving, and the promotion that follows
      leaves counter 1 of a valid store serving two patients. */
  lemma AutoSkipCanDoubleServe()
    ensures var t := AnnounceIntended(DoubleServeStore(), Some(7), "GEN_1_2000");
      && t.result.Ok? && t.result.value.AutoSkipped?
      && |t.state.entries| == 2
      && IsServingAt(t.state.entries[0], 1) && IsServingAt(t.state.entries[1], 1)
      && !OneServingPerCounter(t.state.entries)
  {
    DoubleServeLookups();
    assert AnnounceIntended(DoubleServeStore(), Some(7), "GEN_1_2000") == AutoSkip(DoubleServeBumped(), 1);
    AutoSkipPromotesSecond();
  }

  /** The checked handler refuses to announce an entry the counter is not
      serving, so the same request leaves the store alone. */
  lemma CheckedAnnounceRefuses()
    ensures AnnounceChecked(DoubleServeStore(), Some(7), "GEN_1_2000") == Step(Err(NoServingPatient), DoubleServeStore())
  {
    DoubleServeLookups();
  }
}

=== FILE: intended.dfy ===
/** Two branches of queue_app/views.py that the handlers as written never
    complete, modelled as the code evidently intends them: the break
    redistribution of `update_counter_status` and the auto-skip of
    `announce_patient`. The as-written handlers live in `Views`; here are the
    intended variants, what they guarantee, and inputs on which the two
    differ. */
module Intended {
  import opened Wrappers
  import opened Models
  import opened Store
  import opened QueueIds
  import opened Invariants
  import opened Views
  import opened ViewsProofs

  // ------------------------------------------------------ redistribution

  /** The redistribution block moves exactly the counter's waiting entries,
      and only those, to the target, and changes nothing else. */
  lemma RedistributeMovesWaiting(s: State, c: CounterId, n: CounterId)
    requires IsRedistributionTarget(s.counters, c, n)
    ensures Rebound(s.entries, Redistribute(s, c).entries, c, n)
    ensures Redistribute(s, c) == s.(entries := Redistribute(s, c).entries)
  {
    var m := NextAvailableAbove(s.counters, s.counters[c].service, c);
    assert m == Some(n);
  }

  /** What rebinding does to one entry's contribution to the counts. */
  lemma ReboundEntry(e: QueueEntry, e': QueueEntry, c: CounterId, n: CounterId, d: CounterId)
    requires e' == if IsWaitingAt(e, c) then e.(counter := Some(n)) else e
    requires c != n
    ensures !IsWaitingAt(e', c)
    ensures IsWaitingAt(e', n) <==> IsWaitingAt(e, n) || IsWaitingAt(e, c)
    ensures d != c && d != n ==> (IsWaitingAt(e', d) <==> IsWaitingAt(e, d))
  {
  }

  lemma ReboundPrefix(es: seq<QueueEntry>, es': seq<QueueEntry>, c: CounterId, n: CounterId)
    requires Rebound(es, es', c, n) && |es| > 0
    ensures Rebound(es[..|es| - 1], es'[..|es'| - 1], c, n)
  {
    var k := |es| - 1;
    forall j | 0 <= j < k
      ensures es'[..k][j] == if IsWaitingAt(es[..k][j], c) then es[..k][j].(counter := Some(n)) else es[..k][j]
    {
      assert es'[..k][j] == es'[j] && es[..k][j] == es[j];
    }
  }

  /** Rebinding empties the source counter's waiting list. */
  lemma {:induction false} ReboundEmptiesSource(es: seq<QueueEntry>, es': seq<QueueEntry>, c: CounterId, n: CounterId)
    requires Rebound(es, es', c, n) && c != n
    ensures WaitingCount(es', c) == 0
  {
    if |es| > 0 {
      var k := |es| - 1;
      ReboundPrefix(es, es', c, n);
      ReboundEmptiesSource(es[..k], es'[..k], c, n);
      ReboundEntry(es[k], es'[k], c, n, c);
    }
  }

  /** Rebinding adds the source counter's waiting entries to the target's. */
  lemma {:induction false} ReboundFillsTarget(es: seq<QueueEntry>, es': seq<QueueEntry>, c: CounterId, n: CounterId)
    requires Rebound(es, es', c, n) && c != n
    ensures WaitingCount(es', n) == WaitingCount(es, n) + WaitingCount(es, c)
  {
    if |es| > 0 {
      var k := |es| - 1;
      ReboundPrefix(es, es', c, n);
      ReboundFillsTarget(es[..k], es'[..k], c, n);
      ReboundEntry(es[k], es'[k], c, n, c);
    }
  }

  /** Rebinding leaves every other counter's waiting count alone. */
  lemma {:induction false} ReboundKeepsOthers(es: seq<QueueEntry>, es': seq<QueueEntry>, c: CounterId, n: CounterId, d: CounterId)
    requires Rebound(es, es', c, n) && c != n && d != c && d != n
    ensures WaitingCount(es', d) == WaitingCount(es, d)
  {
    if |es| > 0 {
      var k := |es| - 1;
      ReboundPrefix(es, es', c, n);
      ReboundKeepsOthers(es[..k], es'[..k], c, n, d);
      ReboundEntry(es[k], es'[k], c, n, d);
    }
  }

  /** Rebinding conserves waiting entries: the source counter is emptied,
      the target gains exactly what the source had, every other counter keeps
      its count. */
  lemma ReboundCounts(es: seq<QueueEntry>, es': seq<QueueEntry>, c: CounterId, n: CounterId, d: CounterId)
    requires Rebound(es, es', c, n) && c != n
    ensures WaitingCount(es', c) == 0
    ensures WaitingCount(es', n) == WaitingCount(es, n) + WaitingCount(es, c)
    ensures d != c && d != n ==> WaitingCount(es', d) == WaitingCount(es, d)
  {
    ReboundEmptiesSource(es, es', c, n);
    ReboundFillsTarget(es, es', c, n);
    if d != c && d != n {
      ReboundKeepsOthers(es, es', c, n, d);
    }
  }

  /** The redistribution block keeps every store invariant. */
  lemma RedistributePreservesValid(s: State, c: CounterId)
    requires Valid(s)
    ensures Valid(Redistribute(s, c))
  {
    var s' := Redistribute(s, c);
    if s' != s {
      var n := NextAvailableAbove(s.counters, s.counters[c].service, c).value;
      RedistributeMovesWaiting(s, c, n);
      assert forall k :: 0 <= k < |s.entries| ==> s'.entries[k].status == s.entries[k].status;
    }
  }

  /** Changing a counter's own status does not change where its waiting
      entries would be sent. */
  lemma TargetIgnoresOwnStatus(counters: map<CounterId, Counter>, c: CounterId, st: CounterStatus)
    requires c in counters
    ensures forall n :: IsRedistributionTarget(SetCounterStatus(counters, c, st), c, n) <==> IsRedistributionTarget(counters, c, n)
  {
  }

  /** `update_counter_status` with the break test reading the status the
      counter had before the request, so that entering 'break' from any other
      status runs the redistribution block. Only the counter's status and,
      when it enters break and a target exists, the bindings of its waiting
      entries change. */
  function UpdateCounterStatusIntended(s: State, caller: Option<StaffId>, requested: string): (t: Step<StatusReply>)
    ensures CallerCounter(s, caller).Err? ==> t == Step(Err(CallerCounter(s, caller).error), s)
    ensures CallerCounter(s, caller).Ok? && !SettableStatus(requested) ==> t == Step(Err(InvalidStatus), s)
    ensures t.result.Ok? <==> CallerCounter(s, caller).Ok? && SettableStatus(requested)
    ensures t.result.Ok? ==> t.state == s.(counters := t.state.counters, entries := t.state.entries)
    ensures t.result.Ok? ==> var c := CallerCounter(s, caller).value;
              var entersBreak := requested == "break" && s.counters[c].status != Break;
              && (forall n :: entersBreak && IsRedistributionTarget(s.counters, c, n) ==> Rebound(s.entries, t.state.entries, c, n))
              && ((!entersBreak || forall n :: !IsRedistributionTarget(s.counters, c, n)) ==> t.state.entries == s.entries)
    ensures t.result.Err? ==> t.state == s
    ensures t.state.services == s.services && t.state.patients == s.patients && t.state.staff == s.staff
    ensures t.state.clock == s.clock && t.state.history == s.history
    ensures t.result.Ok? ==> var c := CallerCounter(s, caller).value;
              && t.state.counters.Keys == s.counters.Keys
              && CounterStatusName(t.state.counters[c].status) == requested
              && t.state.counters[c].(status := s.counters[c].status) == s.counters[c]
              && (forall d :: d in s.counters && d != c ==> t.state.counters[d] == s.counters[d])
  {
    match CallerCounter(s, caller)
    case Err(e) => Step(Err(e), s)
    case Ok(c) =>
      match RequestedStatus(requested)
      case None => Step(Err(InvalidStatus), s)
      case Some(st) =>
        var previous := s.counters[c].status;
        var s1 := s.(counters := SetCounterStatus(s.counters, c, st));
        TargetIgnoresOwnStatus(s.counters, c, st);
        var s2 := if requested == "break" && previous != Break then Redistribute(s1, c) else s1;
        Step(Ok(StatusUpdated), s2)
  }

  /** Entering 'break' with a target available moves every waiting entry of
      the counter there, and nothing else about the entries changes. */
  lemma UpdateIntendedMovesWaiting(s: State, caller: Option<StaffId>, c: CounterId, n: CounterId)
    requires CallerCounter(s, caller) == Ok(c) && s.counters[c].status != Break
    requires IsRedistributionTarget(s.counters, c, n)
    ensures var t := UpdateCounterStatusIntended(s, caller, "break");
      && t.result == Ok(StatusUpdated)
      && t.state.counters[c].status == Break
      && Rebound(s.entries, t.state.entries, c, n)
      && WaitingCount(t.state.entries, c) == 0
      && WaitingCount(t.state.entries, n) == WaitingCount(s.entries, n) + WaitingCount(s.entries, c)
  {
    var s1 := s.(counters := SetCounterStatus(s.counters, c, Break));
    assert IsRedistributionTarget(s1.counters, c, n);
    RedistributeMovesWaiting(s1, c, n);
    var t := UpdateCounterStatusIntended(s, caller, "break");
    assert t.state == Redistribute(s1, c);
    ReboundCounts(s.entries, t.state.entries, c, n, c);
  }

  lemma UpdateIntendedPreservesValid(s: State, caller: Option<StaffId>, requested: string)
    requires Valid(s)
    ensures Valid(UpdateCounterStatusIntended(s, caller, requested).state)
  {
    var t := UpdateCounterStatusIntended(s, caller, requested);
    if t.result.Ok? {
      var c := CallerCounter(s, caller).value;
      var st := RequestedStatus(requested).value;
      var s1 := s.(counters := SetCounterStatus(s.counters, c, st));
      SetStatusKeepsLinks(s, c, st);
      RedistributePreservesValid(s1, c);
    }
  }

  // ------------------------------------------------------------ auto-skip

  /** Lines 570-587 of `announce_patient`: promote the oldest waiting entry
      of counter `c`, if any, and report it. Only that entry's status
      changes. */
  function PromoteOldest(s: State, c: CounterId): (t: Step<AnnounceReply>)
    ensures t.result.Ok? && t.result.value.AutoSkipped?
    ensures t.state == s.(entries := t.state.entries)
    ensures |t.state.entries| == |s.entries|
    ensures forall k :: 0 <= k < |s.entries| ==> t.state.entries[k].id == s.entries[k].id
    ensures t.result.value.next.None? <==> forall k :: 0 <= k < |s.entries| ==> !IsWaitingAt(s.entries[k], c)
    ensures t.result.value.next.None? ==> t.state == s
    ensures t.result.value.next.Some? ==>
              exists k :: 0 <= k < |t.state.entries| && t.state.entries[k].id == t.result.value.next.value.queueId
                && IsWaitingAt(s.entries[k], c) && t.state.entries[k] == s.entries[k].(status := Serving)
    ensures t.result.value.next.Some? ==>
              exists j: nat :: && IsOldestWaiting(s.entries, j, c) && t.state.entries == Promote(s.entries, j)
                               && t.result.value.next.value == NextPatient(s.entries[j].patient, s.entries[j].id)
  {
    match OldestWaiting(s.entries, Some(c))
    case Some(j) =>
      var next := NextPatient(s.entries[j].patient, s.entries[j].id);
      var es := Promote(s.entries, j);
      assert es[j].id == next.queueId;
      Step(Ok(AutoSkipped(Some(next))), s.(entries := es))
    case None =>
      Step(Ok(AutoSkipped(None)), s)
  }

  /** Lines 557-587 of `announce_patient` with a well-formed history row:
      archive entry `i` as 'skipped', then promote the oldest waiting entry
      bound to the same counter. It neither checks that the entry is being
      served nor whose counter it is, and it leaves the counter's status
      alone. A missing counter fails the non-null history column. */
  function AutoSkip(s: State, i: nat): (t: Step<AnnounceReply>)
    requires i < |s.entries|
    ensures s.entries[i].counter.None? ==> t == Step(Err(HistoryWriteFailed), s)
    ensures s.entries[i].counter.Some? ==>
              && t.result.Ok? && t.result.value.AutoSkipped?
              && t.state.history == s.history + [ArchiveRecord(s.entries[i], s.entries[i].counter.value, "skipped")]
              && |t.state.entries| == |s.entries| - 1
              && t.state.counters == s.counters
              && (forall k :: 0 <= k < |t.state.entries| ==> t.state.entries[k].id == s.entries[if k < i then k else k + 1].id)
              && (t.result.value.next.None? ==>
                    forall k :: 0 <= k < |t.state.entries| ==> !IsWaitingAt(t.state.entries[k], s.entries[i].counter.value))
              && (t.result.value.next.Some? ==>
                    exists k :: 0 <= k < |t.state.entries| && t.state.entries[k].id == t.result.value.next.value.queueId
                      && IsServingAt(t.state.entries[k], s.entries[i].counter.value))
    ensures s.entries[i].counter.Some? ==>
              var c := s.entries[i].counter.value; var base := RemoveAt(s.entries, i);
              && (t.result.value.next.None? ==> t.state.entries == base)
              && (t.result.value.next.Some? ==>
                    exists j: nat :: && IsOldestWaiting(base, j, c) && t.state.entries == Promote(base, j)
                                     && t.result.value.next.value == NextPatient(base[j].patient, base[j].id))
    ensures t.state.services == s.services && t.state.patients == s.patients && t.state.staff == s.staff && t.state.clock == s.clock
  {
    match s.entries[i].counter
    case None => Step(Err(HistoryWriteFailed), s)
    case Some(c) => PromoteOldest(Archive(s, i, c, "skipped"), c)
  }

  /** `announce_patient` as intended: from the third announcement on, the
      entry is auto-skipped instead of the request failing. */
  function AnnounceIntended(s: State, caller: Option<StaffId>, qid: QueueId): (t: Step<AnnounceReply>)
    ensures caller.None? ==> t == Step(Err(NotAuthenticated), s)
    ensures caller.Some? && (forall k :: 0 <= k < |s.entries| ==> s.entries[k].id != qid) ==> t == Step(Err(EntryNotFound), s)
    ensures t.result.Ok? && t.result.value.Announced? ==> t.result.value.count < AutoSkipThreshold && t.state.history == s.history
    ensures t.result.Ok? && t.result.value.AutoSkipped? ==> |t.state.history| == |s.history| + 1 && t.state.history[|s.history|].status == "skipped"
    ensures caller.Some? && FindEntry(s.entries, qid).Some? ==>
              var i := FindEntry(s.entries, qid).value; var n := s.entries[i].announcements + 1;
              && (n < AutoSkipThreshold ==> t.result == Ok(Announced(n)))
              && (n >= AutoSkipThreshold && s.entries[i].counter.Some? ==>
                    && t.result.Ok? && t.result.value.AutoSkipped?
                    && t.state.history == s.history + [ArchiveRecord(s.entries[i].(announcements := n), s.entries[i].counter.value, "skipped")]
                    && |t.state.entries| == |s.entries| - 1)
  {
    if caller.None? then Step(Err(NotAuthenticated), s)
    else match FindEntry(s.entries, qid)
      case None => Step(Err(EntryNotFound), s)
      case Some(i) =>
        var n := s.entries[i].announcements + 1;
        if n >= AutoSkipThreshold then AutoSkip(Bump(s, i), i)
        else Step(Ok(Announced(n)), Bump(s, i))
  }

  /** As written, the third announcement fails and the entry stays in the
      live table with its raised count; history is not written. */
  lemma AnnounceAtThresholdAsWritten(s: State, caller: StaffId, i: nat)
    requires Valid(s) && i < |s.entries| && s.entries[i].announcements + 1 >= AutoSkipThreshold
    ensures var t := Announce(s, Some(caller), s.entries[i].id);
      && t.result == Err(HistoryWriteFailed)
      && t.state.history == s.history
      && t.state.entries[i] == s.entries[i].(announcements := s.entries[i].announcements + 1)
  {
    AnnounceBumpsOne(s, caller, i);
  }

  /** Below the threshold the intended handler behaves as written: it raises
      the count of exactly that entry and reports it. */
  lemma AnnounceIntendedBelowThreshold(s: State, caller: StaffId, i: nat)
    requires Valid(s) && i < |s.entries| && s.entries[i].announcements + 1 < AutoSkipThreshold
    ensures var n := s.entries[i].announcements + 1;
      AnnounceIntended(s, Some(caller), s.entries[i].id) == Step(Ok(Announced(n)), s.(entries := s.entries[i := s.entries[i].(announcements := n)]))
    ensures AnnounceIntended(s, Some(caller), s.entries[i].id) == Announce(s, Some(caller), s.entries[i].id)
  {
    assert FindEntry(s.entries, s.entries[i].id) == Some(i);
  }

  /** At the threshold the intended handler is the auto-skip of the bumped
      entry. */
  lemma AnnounceIntendedAtThreshold(s: State, caller: StaffId, i: nat)
    requires Valid(s) && i < |s.entries| && s.entries[i].announcements + 1 >= AutoSkipThreshold
    ensures AnnounceIntended(s, Some(caller), s.entries[i].id) == AutoSkip(Bump(s, i), i)
  {
    assert FindEntry(s.entries, s.entries[i].id) == Some(i);
  }

  /** With unique queue ids, the auto-skipped entry's id is gone from the
      live table. */
  lemma AutoSkipRemovesId(s: State, i: nat)
    requires i < |s.entries| && UniqueQueueIds(s.entries) && s.entries[i].counter.Some?
    ensures forall k :: 0 <= k < |AutoSkip(s, i).state.entries| ==> AutoSkip(s, i).state.entries[k].id != s.entries[i].id
  {
    var t := AutoSkip(s, i);
    forall k | 0 <= k < |t.state.entries|
      ensures t.state.entries[k].id != s.entries[i].id
    {
      var k' := if k < i then k else k + 1;
      assert t.state.entries[k].id == s.entries[k'].id;
    }
  }

  /** As intended, the third announcement archives the entry as skipped and
      removes it from the live table, so a fourth announcement of the same
      id finds nothing. */
  lemma AnnounceIntendedSkips(s: State, caller: StaffId, i: nat)
    requires Valid(s) && i < |s.entries| && s.entries[i].announcements + 1 >= AutoSkipThreshold
    ensures var t := AnnounceIntended(s, Some(caller), s.entries[i].id);
      var e := s.entries[i];
      && t.result.Ok? && t.result.value.AutoSkipped?
      && t.state.history == s.history + [ArchiveRecord(e.(announcements := e.announcements + 1), e.counter.value, "skipped")]
      && (forall k :: 0 <= k < |t.state.entries| ==> t.state.entries[k].id != e.id)
      && AnnounceIntended(t.state, Some(caller), e.id) == Step(Err(EntryNotFound), t.state)
  {
    var s1 := Bump(s, i);
    AnnounceIntendedAtThreshold(s, caller, i);
    AutoSkipRemovesId(s1, i);
  }

  /** The announce handler with the check the auto-skip leaves out: only the
      caller's counter's serving entry may be announced, so only it can be
      auto-skipped. */
  function AnnounceChecked(s: State, caller: Option<StaffId>, qid: QueueId): (t: Step<AnnounceReply>)
    ensures CallerCounter(s, caller).Err? ==> t == Step(Err(CallerCounter(s, caller).error), s)
    ensures t.result.Err? ==> t.state == s
    ensures t.result.Ok? ==> exists k :: 0 <= k < |s.entries| && s.entries[k].id == qid && IsServingAt(s.entries[k], CallerCounter(s, caller).value)
    ensures t.state.services == s.services && t.state.patients == s.patients && t.state.staff == s.staff
    ensures t.state.clock == s.clock && t.state.counters == s.counters
    ensures s.history <= t.state.history && |t.state.history| <= |s.history| + 1
    ensures |t.state.history| == |s.history| + 1 ==> t.state.history[|s.history|].status == "skipped"
    ensures (&& CallerCounter(s, caller).Ok? && FindEntry(s.entries, qid).Some?
             && IsServingAt(s.entries[FindEntry(s.entries, qid).value], CallerCounter(s, caller).value)) ==>
              var i := FindEntry(s.entries, qid).value; var n := s.entries[i].announcements + 1;
              && (n < AutoSkipThreshold ==> t.result == Ok(Announced(n)))
              && (n >= AutoSkipThreshold ==> t.result.Ok? && t.result.value.AutoSkipped? && |t.state.history| == |s.history| + 1)
  {
    match CallerCounter(s, caller)
    case Err(e) => Step(Err(e), s)
    case Ok(c) =>
      match FindEntry(s.entries, qid)
      case None => Step(Err(EntryNotFound), s)
      case Some(i) =>
        if !IsServingAt(s.entries[i], c) then Step(Err(NoServingPatient), s)
        else
          var n := s.entries[i].announcements + 1;
          if n >= AutoSkipThreshold then AutoSkip(Bump(s, i), i)
          else Step(Ok(Announced(n)), Bump(s, i))
  }

  /** Raising an entry's announcement count keeps every invariant. */
  lemma BumpKeepsValid(s: State, i: nat)
    requires Valid(s) && i < |s.entries|
    ensures Valid(Bump(s, i))
  {
  }

  /** Auto-skipping the entry a counter is serving keeps every invariant:
      the counter's only serving slot is freed before it is filled again. */
  lemma AutoSkipServingPreservesValid(s: State, i: nat, c: CounterId)
    requires Valid(s) && i < |s.entries| && IsServingAt(s.entries[i], c)
    ensures Valid(AutoSkip(s, i).state)
  {
    var s1 := Archive(s, i, c, "skipped");
    RemoveAtKeepsTable(s.entries, i, s.clock);
    RemoveServingLeavesNone(s.entries, i, c);
    ArchiveKeepsLinks(s, i, c, "skipped");
    assert TableValid(s1.entries, s1.clock) && EntriesWellLinked(s1);
    match OldestWaiting(s1.entries, Some(c)) {
      case Some(j) =>
        PromoteKeepsTable(s1.entries, j, c, s1.clock);
        PromoteKeepsLinks(s1, j);
        assert AutoSkip(s, i).state == s1.(entries := Promote(s1.entries, j));
      case None =>
        assert AutoSkip(s, i).state == s1;
    }
  }

  /** With the check in place the announce handler keeps every invariant. */
  lemma AnnounceCheckedPreservesValid(s: State, caller: Option<StaffId>, qid: QueueId)
    requires Valid(s)
    ensures Valid(AnnounceChecked(s, caller, qid).state)
  {
    match CallerCounter(s, caller)
    case Err(_) =>
    case Ok(c) =>
      match FindEntry(s.entries, qid)
      case None =>
      case Some(i) =>
        if IsServingAt(s.entries[i], c) {
          var s1 := Bump(s, i);
          BumpKeepsValid(s, i);
          if s1.entries[i].announcements >= AutoSkipThreshold {
            AutoSkipServingPreservesValid(s1, i, c);
            assert AnnounceChecked(s, caller, qid).state == AutoSkip(s1, i).state;
          } else {
            assert AnnounceChecked(s, caller, qid).state == s1;
          }
        }
  }
}

=== FILE: invariants.dfy ===
/** The invariants the queue views maintain over the store: the
    one-to-one staff link and primary keys of queue_app/models.py, and the
    rules the views enforce (no double join, one serving entry per counter,
    entries leave the live table instead of taking a terminal status). */
module Invariants {
  import opened Wrappers
  import opened Models
  import opened Store

  /** Entries leave the live table when completed or skipped, so every live
      row is waiting or serving. */
  ghost predicate OnlyLiveEntries(es: seq<QueueEntry>) {
    forall k :: 0 <= k < |es| ==> IsLive(es[k])
  }

  /** `queue_id` is the primary key of QueueEntry. */
  ghost predicate UniqueQueueIds(es: seq<QueueEntry>) {
    forall i, j :: 0 <= i < j < |es| ==> es[i].id != es[j].id
  }

  /** At most one serving entry per counter. */
  ghost predicate OneServingPerCounter(es: seq<QueueEntry>) {
    forall i, j :: 0 <= i < j < |es| && es[i].status == Serving && es[j].status == Serving ==> es[i].counter != es[j].counter
  }

  /** At most one waiting-or-serving entry per patient. */
  ghost predicate OneLivePerPatient(es: seq<QueueEntry>) {
    forall i, j :: 0 <= i < j < |es| && IsLive(es[i]) && IsLive(es[j]) ==> es[i].patient != es[j].patient
  }

  /** Rows are in creation order and every stamp was issued before `clock`. */
  ghost predicate StampsIncreasing(es: seq<QueueEntry>, clock: nat) {
    && InCreationOrder(es)
    && (forall k :: 0 <= k < |es| ==> es[k].created < clock)
  }

  /** Every live entry is bound to an existing counter of its own service and
      references an existing patient and service. */
  ghost predicate EntriesWellLinked(s: State) {
    forall k :: 0 <= k < |s.entries| ==>
      && s.entries[k].counter.Some?
      && s.entries[k].counter.value in s.counters
      && s.counters[s.entries[k].counter.value].service == s.entries[k].service
      && s.entries[k].patient in s.patients
      && s.entries[k].service in s.services
  }

  /** Counters reference existing services. */
  ghost predicate CountersWellLinked(s: State) {
    forall c :: c in s.counters ==> s.counters[c].service in s.services
  }

  /** `Counter.staff` is a OneToOneField: no staff member mans two counters. */
  ghost predicate StaffOneToOne(counters: map<CounterId, Counter>) {
    forall a, b :: a in counters && b in counters && a != b && counters[a].staff.Some? ==> counters[a].staff != counters[b].staff
  }

  /** `phone_number` is ten characters long (max_length and MinLengthValidator). */
  ghost predicate PhonesWellFormed(patients: map<Phone, Patient>) {
    forall p :: p in patients ==> |p| == 10
  }

  /** The invariants that concern the live table alone. */
  ghost predicate TableValid(es: seq<QueueEntry>, clock: nat) {
    && OnlyLiveEntries(es)
    && UniqueQueueIds(es)
    && OneServingPerCounter(es)
    && OneLivePerPatient(es)
    && StampsIncreasing(es, clock)
  }

  ghost predicate Valid(s: State) {
    && TableValid(s.entries, s.clock)
    && EntriesWellLinked(s)
    && CountersWellLinked(s)
    && StaffOneToOne(s.counters)
    && PhonesWellFormed(s.patients)
  }
}

=== FILE: models.dfy ===
/** The entities of queue_app/models.py that the queue state machine reads
    and writes, and the state of one running system. Primary keys become map
    keys; the live QueueEntry table is a sequence in insertion order; the
    QueueHistory table is an append-only sequence. Wall-clock timestamps are
    replaced by a logical clock. */
module Models {
  import opened Wrappers

  type ServiceId = nat
  type CounterId = nat
  type StaffId = nat
  type Phone = string
  type QueueId = string

  /** Counter.STATUS_CHOICES. */
  datatype CounterStatus = Available | Busy | Break | Closed

  /** The value stored in the `current_status` column. */
  function CounterStatusName(st: CounterStatus): string {
    match st
    case Available => "available"
    case Busy => "busy"
    case Break => "break"
    case Closed => "closed"
  }

  /** Reads a stored or posted status string back; anything that is not one
      of the four choices is refused. */
  function ParseCounterStatus(name: string): (r: Option<CounterStatus>)
    ensures r.Some? ==> CounterStatusName(r.value) == name
    ensures r.None? <==> forall st :: CounterStatusName(st) != name
  {
    if name == "available" then Some(Available)
    else if name == "busy" then Some(Busy)
    else if name == "break" then Some(Break)
    else if name == "closed" then Some(Closed)
    else None
  }

  /** The four choices are stored under four distinct names, each of which
      reads back as itself. */
  lemma CounterStatusNamesRoundTrip(st: CounterStatus)
    ensures ParseCounterStatus(CounterStatusName(st)) == Some(st)
  {
  }

  /** QueueEntry.STATUS_CHOICES. */
  datatype EntryStatus = Waiting | Serving | Skipped | Completed

  /** The value stored in an entry's `current_status` column. */
  function EntryStatusName(st: EntryStatus): string {
    match st
    case Waiting => "waiting"
    case Serving => "serving"
    case Skipped => "skipped"
    case Completed => "completed"
  }

  /** Reads a stored entry status back; anything that is not one of the four
      choices is refused. */
  function ParseEntryStatus(name: string): (r: Option<EntryStatus>)
    ensures r.Some? ==> EntryStatusName(r.value) == name
    ensures r.None? <==> forall st :: EntryStatusName(st) != name
  {
    if name == "waiting" then Some(Waiting)
    else if name == "serving" then Some(Serving)
    else if name == "skipped" then Some(Skipped)
    else if name == "completed" then Some(Completed)
    else None
  }

  lemma EntryStatusNamesRoundTrip(st: EntryStatus)
    ensures ParseEntryStatus(EntryStatusName(st)) == Some(st)
  {
  }

  /** Staff.ROLE_CHOICES. */
  datatype Role = Operator | Supervisor | Admin

  /** A service; its description and weekday are never read by the core. */
  datatype Service = Service(name: string, active: bool)

  /** A counter; `staff` is a one-to-one, nullable link. */
  datatype Counter = Counter(name: string, service: ServiceId, status: CounterStatus, staff: Option<StaffId>)

  /** A patient, keyed by phone number in the state. */
  datatype Patient = Patient(name: string, verified: bool)

  /** A staff member, keyed by staff id in the state; the password is not modelled. */
  datatype Staff = Staff(username: string, role: Role, active: bool)

  /** A live queue entry. `created` is the logical creation stamp that stands
      for `created_at`; the counter is nullable as declared. */
  datatype QueueEntry = QueueEntry(
    id: QueueId,
    patient: Phone,
    service: ServiceId,
    counter: Option<CounterId>,
    status: EntryStatus,
    announcements: nat,
    created: nat)

  /** A QueueHistory row. The counter is not nullable there. `status` is the
      raw `current_status` string: the column's choices are not enforced by
      the database, and the views write values outside them. */
  datatype HistoryRecord = HistoryRecord(
    queueId: QueueId,
    patient: Phone,
    service: ServiceId,
    counter: CounterId,
    status: string,
    created: nat)

  /** The whole store the views act on. `clock` is the next logical stamp. */
  datatype State = State(
    services: map<ServiceId, Service>,
    counters: map<CounterId, Counter>,
    patients: map<Phone, Patient>,
    staff: map<StaffId, Staff>,
    entries: seq<QueueEntry>,
    history: seq<HistoryRecord>,
    clock: nat)

  /** Why a request failed; the views report these as JSON error bodies. */
  datatype Error =
    | NotAuthenticated    // no patient or staff identity in the session
    | ServiceIdRequired   // join without a service id
    | PatientNotFound     // the session's phone has no Patient row
    | AlreadyQueued       // the patient has a waiting or serving entry
    | ServiceNotAvailable // no active service with that id
    | NoCounterAvailable  // the service has no counter in 'available'
    | DuplicateQueueId    // the generated queue id is already a primary key
    | StaffNotFound       // the session's staff id has no Staff row
    | CounterNotFound     // no counter is linked to the staff member
    | MultipleCounters    // more than one counter is linked to the staff member
    | InvalidStatus       // a counter status outside available/busy/break
    | NoServingPatient    // skip with nothing being served
    | EntryNotFound       // no live entry with that queue id
    | HistoryWriteFailed  // the QueueHistory row could not be constructed

  /** The outcome of one request: the reply and the state after it. A failed
      request can still have changed the state when the failure comes after a
      save. */
  datatype Step<+T> = Step(result: Result<T, Error>, state: State)
}

=== FILE: queue_ids.dfy ===
/** Queue-id strings: the formatter `generate_queue_id` of queue_app/utils.py,
    the shadowing variant defined in queue_app/views.py, and the inline
    format that `join_queue` actually uses. Strings are ASCII; `upper()` is
    modelled on ASCII letters only. */
module QueueIds {
  import opened Wrappers

  predicate IsDigit(c: char) {
    '0' <= c <= '9'
  }

  predicate AllDigits(s: string) {
    forall i :: 0 <= i < |s| ==> IsDigit(s[i])
  }

  /** What `random.choices(string.digits, k=4)` joined into a string yields. */
  type RandomDigits = s: string | |s| == 4 && AllDigits(s) witness "0000"

  /** What `random.randint(1000, 9999)` yields (both ends included). */
  type JoinSuffix = r: int | 1000 <= r <= 9999 witness 1000

  function UpperAscii(c: char): char {
    if 'a' <= c <= 'z' then (c as int - 32) as char else c
  }

  function Upper(s: string): (u: string)
    ensures |u| == |s|
    ensures forall i :: 0 <= i < |s| ==> u[i] == UpperAscii(s[i])
  {
    seq(|s|, i requires 0 <= i < |s| => UpperAscii(s[i]))
  }

  /** `service_name[:3].upper()`. */
  function ServicePrefix(serviceName: string): (p: string)
    ensures |p| == if |serviceName| < 3 then |serviceName| else 3
    ensures forall i :: 0 <= i < |p| ==> p[i] == UpperAscii(serviceName[i])
    ensures forall i :: 0 <= i < |p| ==> !('a' <= p[i] <= 'z')
  {
    Upper(if |serviceName| < 3 then serviceName else serviceName[..3])
  }

  function DigitChar(d: nat): (c: char)
    requires d < 10
    ensures IsDigit(c)
  {
    ('0' as int + d) as char
  }

  function DigitValue(c: char): (d: nat)
    requires IsDigit(c)
    ensures d < 10 && DigitChar(d) == c
  {
    c as int - '0' as int
  }

  /** `str(n)` for a non-negative integer. */
  function Decimal(n: nat): (s: string)
    ensures |s| >= 1 && AllDigits(s)
  {
    if n < 10 then [DigitChar(n)] else Decimal(n / 10) + [DigitChar(n % 10)]
  }

  /** `int(s)` for a string of ASCII digits; the reference against which
      `Decimal` and the zero padding are checked. */
  function ParseDecimal(s: string): nat
    requires AllDigits(s)
  {
    if |s| == 0 then 0 else 10 * ParseDecimal(s[..|s| - 1]) + DigitValue(s[|s| - 1])
  }

  lemma {:induction false} ParseDecimalOfDecimal(n: nat)
    ensures ParseDecimal(Decimal(n)) == n
  {
    if n >= 10 {
      var s := Decimal(n);
      assert s[..|s| - 1] == Decimal(n / 10);
      ParseDecimalOfDecimal(n / 10);
    }
  }

  lemma DecimalInjective(a: nat, b: nat)
    requires Decimal(a) == Decimal(b)
    ensures a == b
  {
    ParseDecimalOfDecimal(a);
    ParseDecimalOfDecimal(b);
  }

  /** `str(n)` has no leading zero: it starts with '0' only for zero itself. */
  lemma {:induction false} DecimalLeadingDigit(n: nat)
    ensures Decimal(n)[0] == '0' <==> n == 0
  {
    if n >= 10 {
      DecimalLeadingDigit(n / 10);
    }
  }

  /** Every value `random.randint(1000, 9999)` can draw prints as exactly four digits. */
  lemma DecimalOfJoinSuffix(r: JoinSuffix)
    ensures |Decimal(r)| == 4
  {
    assert Decimal(r / 1000) == [DigitChar(r / 1000)];
    assert |Decimal(r / 100)| == 2 by { assert (r / 100) / 10 == r / 1000; }
    assert |Decimal(r / 10)| == 3 by { assert (r / 10) / 10 == r / 100; }
  }

  function Zeros(k: nat): (z: string)
    ensures |z| == k && AllDigits(z)
    ensures forall i :: 0 <= i < k ==> z[i] == '0'
  {
    seq(k, i => '0')
  }

  /** `str.zfill(width)` for a string without a sign. */
  function ZFill(s: string, width: nat): (r: string)
    ensures |r| == if |s| >= width then |s| else width
    ensures r[|r| - |s|..] == s
    ensures forall i :: 0 <= i < |r| - |s| ==> r[i] == '0'
  {
    if |s| >= width then s else Zeros(width - |s|) + s
  }

  lemma {:induction false} ParseDecimalZeros(k: nat)
    ensures ParseDecimal(Zeros(k)) == 0
  {
    if k > 0 {
      assert Zeros(k)[..k - 1] == Zeros(k - 1);
      ParseDecimalZeros(k - 1);
    }
  }

  /** Leading zeros do not change the value read back. */
  lemma {:induction false} ParseDecimalIgnoresLeadingZeros(k: nat, s: string)
    requires AllDigits(s)
    ensures ParseDecimal(Zeros(k) + s) == ParseDecimal(s)
    decreases |s|
  {
    if |s| == 0 {
      assert Zeros(k) + s == Zeros(k);
      ParseDecimalZeros(k);
    } else {
      var t := Zeros(k) + s;
      assert t[..|t| - 1] == Zeros(k) + s[..|s| - 1];
      assert t[|t| - 1] == s[|s| - 1];
      ParseDecimalIgnoresLeadingZeros(k, s[..|s| - 1]);
    }
  }

  /** `str(counter.counter_id).zfill(3) if counter else "000"`; a model
      instance is always truthy, so any present counter takes the first branch. */
  function CounterPart(counter: Option<nat>): (p: string)
    ensures AllDigits(p) && |p| >= 3
  {
    match counter
    case Some(id) => ZFill(Decimal(id), 3)
    case None => "000"
  }

  /** The counter part reads back as the counter id (or 0 without a counter),
      and it is exactly three characters unless the id needs more digits. */
  lemma CounterPartRoundTrip(counter: Option<nat>)
    ensures ParseDecimal(CounterPart(counter)) == (if counter.Some? then counter.value else 0)
    ensures counter.Some? ==> |CounterPart(counter)| == if |Decimal(counter.value)| >= 3 then |Decimal(counter.value)| else 3
  {
    match counter
    case None =>
      assert CounterPart(counter) == Zeros(3);
      ParseDecimalZeros(3);
    case Some(id) =>
      var d := Decimal(id);
      ParseDecimalOfDecimal(id);
      if |d| < 3 {
        ParseDecimalIgnoresLeadingZeros(3 - |d|, d);
      }
  }

  /** `generate_queue_id(service, counter)` of queue_app/utils.py, with the four
      random digits passed in. */
  function GenerateQueueId(serviceName: string, counter: Option<nat>, randomPart: RandomDigits): (id: string)
    ensures |id| == |ServicePrefix(serviceName)| + |CounterPart(counter)| + 6
    ensures id[|id| - 4..] == randomPart
    ensures AllDigits(id[|id| - 4..])
  {
    ServicePrefix(serviceName) + "_" + CounterPart(counter) + "_" + randomPart
  }

  /** The shadowing `generate_queue_id` defined in queue_app/views.py: the
      counter id is not zero-padded. Nothing in the views calls it. */
  function ViewsGenerateQueueId(serviceName: string, counter: Option<nat>, randomPart: RandomDigits): (id: string)
    ensures |id| >= 7
    ensures id[|id| - 4..] == randomPart
  {
    ServicePrefix(serviceName) + "_" + (match counter case Some(id) => Decimal(id) case None => "000") + "_" + randomPart
  }

  /** The id `join_queue` builds inline: prefix, unpadded counter id, and a
      suffix drawn from 1000..9999. */
  function JoinQueueId(serviceName: string, counterId: nat, suffix: JoinSuffix): (id: string)
    ensures |id| == |ServicePrefix(serviceName)| + |Decimal(counterId)| + 6
    ensures id[|id| - 4..] == Decimal(suffix)
  {
    DecimalOfJoinSuffix(suffix);
    ServicePrefix(serviceName) + "_" + Decimal(counterId) + "_" + Decimal(suffix)
  }
  /** `str(n)` has at least three digits exactly from 100 on. */
  lemma DecimalAtLeastThree(n: nat)
    ensures |Decimal(n)| >= 3 <==> n >= 100
  {
    if n >= 10 {
      assert |Decimal(n)| == |Decimal(n / 10)| + 1;
      if n / 10 >= 10 {
        assert |Decimal(n / 10)| == |Decimal(n / 100)| + 1 by { assert (n / 10) / 10 == n / 100; }
      }
    }
  }

  /** No underscore sits among the digits of the middle part of `p_d_r`. */
  lemma NoUnderscoreInDigits(p: string, d: string, r: string)
    requires AllDigits(d)
    ensures forall j :: |p| < j <= |p| + |d| ==> (p + "_" + d + "_" + r)[j] != '_'
  {
    forall j | |p| < j <= |p| + |d|
      ensures (p + "_" + d + "_" + r)[j] != '_'
    {
      assert (p + "_" + d + "_" + r)[j] == d[j - |p| - 1];
    }
  }

  /** A string `p_d_r` with a non-empty all-digit middle and a tail of known
      length splits back into its three parts: the middle's left underscore
      cannot fall inside the digits of another split. */
  lemma SplitAtUnderscores(p1: string, d1: string, r1: string, p2: string, d2: string, r2: string)
    requires AllDigits(d1) && AllDigits(d2) && |d1| >= 1 && |d2| >= 1 && |r1| == |r2|
    requires p1 + "_" + d1 + "_" + r1 == p2 + "_" + d2 + "_" + r2
    ensures p1 == p2 && d1 == d2 && r1 == r2
  {
    var id := p1 + "_" + d1 + "_" + r1;
    var id2 := p2 + "_" + d2 + "_" + r2;
    NoUnderscoreInDigits(p1, d1, r1);
    NoUnderscoreInDigits(p2, d2, r2);
    assert id[|p1|] == '_' && id2[|p2|] == '_';
    assert |p1| == |p2|;
    assert p1 == id[..|p1|] && p2 == id2[..|p2|];
    assert d1 == id[|p1| + 1..|p1| + 1 + |d1|] && d2 == id2[|p2| + 1..|p2| + 1 + |d2|];
    assert r1 == id[|id| - |r1|..] && r2 == id2[|id2| - |r2|..];
  }

  /** Join ids decode: two join ids are equal exactly when they share the
      upper-cased service prefix, the counter and the drawn suffix. Services
      whose names agree in their first three letters share an id space. */
  lemma JoinQueueIdInjective(n1: string, c1: nat, r1: JoinSuffix, n2: string, c2: nat, r2: JoinSuffix)
    ensures JoinQueueId(n1, c1, r1) == JoinQueueId(n2, c2, r2) <==>
              ServicePrefix(n1) == ServicePrefix(n2) && c1 == c2 && r1 == r2
  {
    if JoinQueueId(n1, c1, r1) == JoinQueueId(n2, c2, r2) {
      DecimalOfJoinSuffix(r1);
      DecimalOfJoinSuffix(r2);
      SplitAtUnderscores(ServicePrefix(n1), Decimal(c1), Decimal(r1), ServicePrefix(n2), Decimal(c2), Decimal(r2));
      DecimalInjective(c1, c2);
      DecimalInjective(r1, r2);
    }
  }

  /** The counter id a counter part stands for; no counter reads as 0. */
  function CounterNumber(counter: Option<nat>): nat {
    if counter.Some? then counter.value else 0
  }

  /** Two counter parts agree exactly when they stand for the same number,
      so "no counter" and counter 0 print alike. */
  lemma CounterPartInjective(a: Option<nat>, b: Option<nat>)
    ensures CounterPart(a) == CounterPart(b) <==> CounterNumber(a) == CounterNumber(b)
  {
    CounterPartRoundTrip(a);
    CounterPartRoundTrip(b);
    if CounterNumber(a) == CounterNumber(b) && a != b {
      assert Decimal(0) == "0";
      assert ZFill("0", 3) == "000";
    }
  }

  /** Ids from `generate_queue_id` of queue_app/utils.py decode: equal
      exactly when prefix, counter number and random digits agree. */
  lemma GenerateQueueIdInjective(n1: string, c1: Option<nat>, r1: RandomDigits, n2: string, c2: Option<nat>, r2: RandomDigits)
    ensures GenerateQueueId(n1, c1, r1) == GenerateQueueId(n2, c2, r2) <==>
              ServicePrefix(n1) == ServicePrefix(n2) && CounterNumber(c1) == CounterNumber(c2) && r1 == r2
  {
    CounterPartInjective(c1, c2);
    if GenerateQueueId(n1, c1, r1) == GenerateQueueId(n2, c2, r2) {
      SplitAtUnderscores(ServicePrefix(n1), CounterPart(c1), r1, ServicePrefix(n2), CounterPart(c2), r2);
    }
  }

  /** The id `join_queue` builds is the one the unused views.py formatter
      would build, and it follows the zero-padded format of
      queue_app/utils.py exactly when the counter id has three digits or
      more. */
  lemma JoinIdFormats(n: string, c: nat, r: JoinSuffix, digits: RandomDigits)
    requires digits == Decimal(r)
    ensures JoinQueueId(n, c, r) == ViewsGenerateQueueId(n, Some(c), digits)
    ensures JoinQueueId(n, c, r) == GenerateQueueId(n, Some(c), digits) <==> c >= 100
  {
    DecimalAtLeastThree(c);
    if c < 100 {
      assert |JoinQueueId(n, c, r)| < |GenerateQueueId(n, Some(c), digits)|;
    }
  }
}

=== FILE: store.dfy ===
/** The ORM queries the views issue, as functions over the state: filters on
    the QueueEntry table, `order_by(...).first()` / `.last()` on counters,
    and the staff-to-counter lookup. Each carries the property the view
    relies on, stated against an independent characterisation. */
module Store {
  import opened Wrappers
  import opened Models

  predicate IsLive(e: QueueEntry) {
    e.status == Waiting || e.status == Serving
  }

  predicate IsWaitingAt(e: QueueEntry, c: CounterId) {
    e.counter == Some(c) && e.status == Waiting
  }

  predicate IsServingAt(e: QueueEntry, c: CounterId) {
    e.counter == Some(c) && e.status == Serving
  }

  /** Rows listed with strictly increasing creation stamps. */
  ghost predicate InCreationOrder(es: seq<QueueEntry>) {
    forall i, j :: 0 <= i < j < |es| ==> es[i].created < es[j].created
  }

  /** The first row of a table (in table order) satisfying `p`. */
  function FirstIndex(es: seq<QueueEntry>, p: QueueEntry -> bool): (r: Option<nat>)
    ensures r.Some? ==> r.value < |es| && p(es[r.value])
    ensures r.Some? ==> forall k :: 0 <= k < r.value ==> !p(es[k])
    ensures r.None? ==> forall k :: 0 <= k < |es| ==> !p(es[k])
  {
    if |es| == 0 then None
    else if p(es[0]) then Some(0)
    else match FirstIndex(es[1..], p)
      case Some(k) => Some(k + 1)
      case None => None
  }

  /** `QueueEntry.objects.get(queue_id=qid)`: the row with that primary key. */
  function FindEntry(es: seq<QueueEntry>, qid: QueueId): (r: Option<nat>)
    ensures r.Some? ==> r.value < |es| && es[r.value].id == qid
    ensures r.Some? ==> forall k :: 0 <= k < r.value ==> es[k].id != qid
    ensures r.None? <==> forall k :: 0 <= k < |es| ==> es[k].id != qid
  {
    FirstIndex(es, (e: QueueEntry) => e.id == qid)
  }

  /** `filter(counter=c, current_status='serving').first()`. */
  function ServingOf(es: seq<QueueEntry>, c: CounterId): (r: Option<nat>)
    ensures r.Some? ==> r.value < |es| && IsServingAt(es[r.value], c)
    ensures r.None? <==> forall k :: 0 <= k < |es| ==> !IsServingAt(es[k], c)
  {
    FirstIndex(es, (e: QueueEntry) => IsServingAt(e, c))
  }

  /** `filter(counter=c, current_status='waiting').order_by('created_at').first()`
      over the first `n` rows: the waiting entry of `c` with the smallest
      creation stamp (the earliest such row on a tie). */
  function OldestWaitingIn(es: seq<QueueEntry>, c: Option<CounterId>, n: nat): (r: Option<nat>)
    requires n <= |es|
    ensures r.Some? ==> r.value < n && es[r.value].counter == c && es[r.value].status == Waiting
    ensures r.Some? ==> forall k :: 0 <= k < n && es[k].counter == c && es[k].status == Waiting ==> es[r.value].created <= es[k].created
    ensures r.None? <==> forall k :: 0 <= k < n ==> !(es[k].counter == c && es[k].status == Waiting)
  {
    if n == 0 then None
    else
      var rest := OldestWaitingIn(es, c, n - 1);
      var e := es[n - 1];
      if e.counter == c && e.status == Waiting && (rest.None? || e.created < es[rest.value].created) then Some(n - 1)
      else rest
  }

  /** The oldest waiting entry of a counter (`c` is compared as the view's
      filter compares it, so `None` matches entries without a counter). */
  function OldestWaiting(es: seq<QueueEntry>, c: Option<CounterId>): (r: Option<nat>)
    ensures r.Some? ==> r.value < |es| && es[r.value].counter == c && es[r.value].status == Waiting
    ensures r.Some? ==> forall k :: 0 <= k < |es| && es[k].counter == c && es[k].status == Waiting ==> es[r.value].created <= es[k].created
    ensures r.None? <==> forall k :: 0 <= k < |es| ==> !(es[k].counter == c && es[k].status == Waiting)
  {
    OldestWaitingIn(es, c, |es|)
  }

  /** The oldest waiting entry of a counter, stated without the scan. */
  ghost predicate IsOldestWaiting(es: seq<QueueEntry>, w: nat, c: CounterId) {
    && w < |es| && IsWaitingAt(es[w], c)
    && forall k :: 0 <= k < |es| && IsWaitingAt(es[k], c) ==> es[w].created <= es[k].created
  }

  /** Number of waiting entries bound to counter `c`. */
  function WaitingCount(es: seq<QueueEntry>, c: CounterId): (r: nat)
    ensures r <= |es|
    ensures r == 0 <==> forall k :: 0 <= k < |es| ==> !IsWaitingAt(es[k], c)
  {
    if |es| == 0 then 0
    else WaitingCount(es[..|es| - 1], c) + (if IsWaitingAt(es[|es| - 1], c) then 1 else 0)
  }

  /** `filter(patient=p, current_status__in=['waiting', 'serving']).exists()`. */
  predicate HasLiveEntry(es: seq<QueueEntry>, p: Phone) {
    exists k | 0 <= k < |es| :: es[k].patient == p && IsLive(es[k])
  }

  /** Deleting one row. */
  function RemoveAt(es: seq<QueueEntry>, i: nat): (r: seq<QueueEntry>)
    requires i < |es|
    ensures |r| == |es| - 1
    ensures forall k :: 0 <= k < i ==> r[k] == es[k]
    ensures forall k :: i <= k < |r| ==> r[k] == es[k + 1]
  {
    es[..i] + es[i + 1..]
  }

  predicate IsLeast(m: nat, ids: set<nat>) {
    m in ids && forall x :: x in ids ==> m <= x
  }

  predicate IsGreatest(m: nat, ids: set<nat>) {
    m in ids && forall x :: x in ids ==> x <= m
  }

  lemma {:induction false} HasMinimum(ids: set<nat>)
    requires ids != {}
    ensures exists m :: IsLeast(m, ids)
  {
    var y :| y in ids;
    if ids == {y} {
      assert IsLeast(y, ids);
    } else {
      var rest := ids - {y};
      HasMinimum(rest);
      var m :| IsLeast(m, rest);
      var least := if y < m then y else m;
      forall x | x in ids
        ensures least <= x
      {
        if x != y {
          assert x in rest;
        }
      }
      assert IsLeast(least, ids);
    }
  }

  lemma {:induction false} HasMaximum(ids: set<nat>)
    requires ids != {}
    ensures exists m :: IsGreatest(m, ids)
  {
    var y :| y in ids;
    if ids == {y} {
      assert IsGreatest(y, ids);
    } else {
      var rest := ids - {y};
      HasMaximum(rest);
      var m :| IsGreatest(m, rest);
      var greatest := if y > m then y else m;
      forall x | x in ids
        ensures x <= greatest
      {
        if x != y {
          assert x in rest;
        }
      }
      assert IsGreatest(greatest, ids);
    }
  }

  /** `order_by('counter_id').first()` on a non-empty set of counter ids. */
  function MinOf(ids: set<nat>): (m: nat)
    requires ids != {}
    ensures m in ids && forall x :: x in ids ==> m <= x
  {
    HasMinimum(ids);
    var m :| IsLeast(m, ids); m
  }

  /** `.last()` on an unordered counter queryset: Django orders it by primary
      key descending, so it is the greatest id. */
  function MaxOf(ids: set<nat>): (m: nat)
    requires ids != {}
    ensures m in ids && forall x :: x in ids ==> x <= m
  {
    HasMaximum(ids);
    var m :| IsGreatest(m, ids); m
  }

  /** `Counter.objects.filter(service=svc, current_status='available')`. */
  function AvailableCounters(counters: map<CounterId, Counter>, svc: ServiceId): set<CounterId> {
    set c | c in counters && counters[c].service == svc && counters[c].status == Available
  }

  /** The counter `join_queue` targets: the available counter of the service
      with the smallest id. */
  function FirstAvailable(counters: map<CounterId, Counter>, svc: ServiceId): (r: Option<CounterId>)
    ensures r.Some? ==> r.value in counters && counters[r.value].service == svc && counters[r.value].status == Available
    ensures r.Some? ==> forall c :: c in counters && counters[c].service == svc && counters[c].status == Available ==> r.value <= c
    ensures r.None? <==> forall c :: c in counters && counters[c].service == svc ==> counters[c].status != Available
  {
    var ids := AvailableCounters(counters, svc);
    assert forall c :: c in counters && counters[c].service == svc && counters[c].status == Available ==> c in ids;
    if ids == {} then None else Some(MinOf(ids))
  }

  /** The redistribution target: the available counter of the same service
      with the smallest id greater than `from`. */
  function NextAvailableAbove(counters: map<CounterId, Counter>, svc: ServiceId, from: CounterId): (r: Option<CounterId>)
    ensures r.Some? ==> r.value in counters && r.value > from && counters[r.value].service == svc && counters[r.value].status == Available
    ensures r.Some? ==> forall c :: c in counters && c > from && counters[c].service == svc && counters[c].status == Available ==> r.value <= c
    ensures r.None? <==> forall c :: c in counters && c > from && counters[c].service == svc ==> counters[c].status != Available
  {
    var ids := set c | c in counters && c > from && counters[c].service == svc && counters[c].status == Available;
    assert forall c :: c in counters && c > from && counters[c].service == svc && counters[c].status == Available ==> c in ids;
    if ids == {} then None else Some(MinOf(ids))
  }

  /** The break counter reported by `get_queue_data`: among the service's
      counters on break with a smaller id, the greatest id. */
  function PreviousBreakCounter(counters: map<CounterId, Counter>, svc: ServiceId, below: CounterId): (r: Option<CounterId>)
    ensures r.Some? ==> r.value in counters && r.value < below && counters[r.value].service == svc && counters[r.value].status == Break
    ensures r.Some? ==> forall c :: c in counters && c < below && counters[c].service == svc && counters[c].status == Break ==> c <= r.value
    ensures r.None? <==> forall c :: c in counters && c < below && counters[c].service == svc ==> counters[c].status != Break
  {
    var ids := set c | c in counters && c < below && counters[c].service == svc && counters[c].status == Break;
    assert forall c :: c in counters && c < below && counters[c].service == svc && counters[c].status == Break ==> c in ids;
    if ids == {} then None else Some(MaxOf(ids))
  }

  /** The counters linked to a staff member through the one-to-one field. */
  function StaffedCounters(counters: map<CounterId, Counter>, sid: StaffId): set<CounterId> {
    set c | c in counters && counters[c].staff == Some(sid)
  }

  /** The session check, `Staff.objects.get(staff_id=...)` and
      `Counter.objects.get(staff=staff)` that open every staff view. */
  function CallerCounter(s: State, caller: Option<StaffId>): (r: Result<CounterId, Error>)
    ensures caller.None? <==> r == Err(NotAuthenticated)
    ensures caller.Some? && caller.value !in s.staff <==> r == Err(StaffNotFound)
    ensures r.Ok? ==> caller.Some? && caller.value in s.staff
    ensures r.Ok? ==> r.value in s.counters && s.counters[r.value].staff == caller
    ensures r.Ok? ==> forall c :: c in s.counters && s.counters[c].staff == caller ==> c == r.value
    ensures r == Err(CounterNotFound) <==>
              caller.Some? && caller.value in s.staff && forall c :: c in s.counters ==> s.counters[c].staff != caller
    ensures r == Err(MultipleCounters) <==> caller.Some? && caller.value in s.staff && |StaffedCounters(s.counters, caller.value)| > 1
    ensures caller.Some? && caller.value in s.staff && |StaffedCounters(s.counters, caller.value)| == 1 ==> r.Ok?
  {
    if caller.None? then Err(NotAuthenticated)
    else if caller.value !in s.staff then Err(StaffNotFound)
    else
      var linked := StaffedCounters(s.counters, caller.value);
      assert forall c :: c in s.counters && s.counters[c].staff == caller ==> c in linked;
      if linked == {} then Err(CounterNotFound)
      else if |linked| > 1 then Err(MultipleCounters)
      else
        var c := MinOf(linked);
        assert linked == {c} by {
          assert |linked - {c}| == 0;
          assert forall x :: x in linked ==> x == c || x in linked - {c};
        }
        Ok(c)
  }
}

=== FILE: system.dfy ===
/** The queue service as a whole: a store driven by a sequence of requests
    to the five state-changing views. */
module System {
  import opened Wrappers
  import opened Models
  import opened QueueIds
  import opened Invariants
  import opened Views
  import opened ViewsProofs
  import opened Intended

  /** One POST to a state-changing view, with the session identity it
      carries. The join suffix stands for the `random.randint` draw. */
  datatype Request =
    | JoinRequest(phone: Option<Phone>, service: Option<ServiceId>, suffix: JoinSuffix)
    | ServeNextRequest(staff: Option<StaffId>)
    | SkipRequest(staff: Option<StaffId>)
    | StatusRequest(staff: Option<StaffId>, status: string)
    | AnnounceRequest(staff: Option<StaffId>, queueId: QueueId)

  /** Statuses the views write into QueueHistory rows: the names of the two
      statuses an entry ends in. */
  predicate WrittenStatus(status: string) {
    ParseEntryStatus(status) == Some(Completed) || ParseEntryStatus(status) == Some(Skipped)
  }

  /** Every history row from index `from` on carries a written status. */
  ghost predicate HistoryWrittenFrom(h: seq<HistoryRecord>, from: nat) {
    forall k :: from <= k < |h| ==> WrittenStatus(h[k].status)
  }

  /** What one request may change: history only grows, by at most one row
      and only with a status the views write; registered services, patients
      and staff and the set of counters never change; the clock advances by
      at most one. */
  ghost predicate StepFrame(s: State, s': State) {
    && s.history <= s'.history && |s'.history| <= |s.history| + 1
    && HistoryWrittenFrom(s'.history, |s.history|)
    && s'.services == s.services && s'.patients == s.patients && s'.staff == s.staff
    && s'.counters.Keys == s.counters.Keys
    && s.clock <= s'.clock <= s.clock + 1
  }

  /** 'completed' and 'skipped' are the names of the two final entry statuses. */
  lemma WrittenStatusNames()
    ensures WrittenStatus("completed") && WrittenStatus("skipped")
  {
    assert EntryStatusName(Completed) == "completed" && EntryStatusName(Skipped) == "skipped";
  }

  lemma JoinFrame(s: State, p: Option<Phone>, svc: Option<ServiceId>, suffix: JoinSuffix)
    ensures StepFrame(s, Join(s, p, svc, suffix).state)
  {
  }

  lemma ServeNextFrame(s: State, st: Option<StaffId>)
    ensures StepFrame(s, ServeNext(s, st).state)
  {
    WrittenStatusNames();
  }

  lemma SkipFrame(s: State, st: Option<StaffId>)
    ensures StepFrame(s, Skip(s, st).state)
  {
    WrittenStatusNames();
  }

  lemma StatusFrame(s: State, st: Option<StaffId>, status: string)
    ensures StepFrame(s, UpdateCounterStatus(s, st, status).state)
  {
  }

  lemma AnnounceFrame(s: State, st: Option<StaffId>, qid: QueueId)
    ensures StepFrame(s, Announce(s, st, qid).state)
  {
  }

  /** The store after one request, whatever the reply. */
  function Apply(s: State, r: Request): (s': State)
    ensures StepFrame(s, s')
  {
    match r
    case JoinRequest(p, svc, suffix) => JoinFrame(s, p, svc, suffix); Join(s, p, svc, suffix).state
    case ServeNextRequest(st) => ServeNextFrame(s, st); ServeNext(s, st).state
    case SkipRequest(st) => SkipFrame(s, st); Skip(s, st).state
    case StatusRequest(st, status) => StatusFrame(s, st, status); UpdateCounterStatus(s, st, status).state
    case AnnounceRequest(st, qid) => AnnounceFrame(s, st, qid); Announce(s, st, qid).state
  }

  lemma ApplyPreservesValid(s: State, r: Request)
    requires Valid(s)
    ensures Valid(Apply(s, r))
  {
    match r
    case JoinRequest(p, svc, suffix) => JoinPreservesValid(s, p, svc, suffix);
    case ServeNextRequest(st) => ServeNextPreservesValid(s, st);
    case SkipRequest(st) => SkipPreservesValid(s, st);
    case StatusRequest(st, status) => UpdateCounterStatusPreservesValid(s, st, status);
    case AnnounceRequest(st, qid) => AnnouncePreservesValid(s, st, qid);
  }

  /** The store after a sequence of requests, applied in order. The history
      is an append-only log: what was archived stays archived. */
  function Run(s: State, rs: seq<Request>): (s': State)
    ensures s.history <= s'.history && |s'.history| <= |s.history| + |rs|
    ensures HistoryWrittenFrom(s'.history, |s.history|)
    ensures s'.services == s.services && s'.patients == s.patients && s'.staff == s.staff
    ensures s.clock <= s'.clock <= s.clock + |rs|
    decreases |rs|
  {
    if |rs| == 0 then s else Run(Apply(s, rs[0]), rs[1..])
  }

  /** Every store reachable from a valid store is valid. */
  lemma {:induction false} RunPreservesValid(s: State, rs: seq<Request>)
    requires Valid(s)
    ensures Valid(Run(s, rs))
    decreases |rs|
  {
    if |rs| > 0 {
      ApplyPreservesValid(s, rs[0]);
      RunPreservesValid(Apply(s, rs[0]), rs[1..]);
    }
  }

  /** The empty store a fresh deployment starts from, with its catalogue of
      services, counters, patients and staff. */
  function Initial(services: map<ServiceId, Service>, counters: map<CounterId, Counter>,
                   patients: map<Phone, Patient>, staff: map<StaffId, Staff>): (s: State)
    ensures s.entries == [] && s.history == [] && s.clock == 0
  {
    State(services, counters, patients, staff, [], [], 0)
  }

  /** From a well-formed catalogue, every reachable store satisfies every
      invariant, in particular at most one serving entry per counter and at
      most one live entry per patient. */
  lemma ReachableValid(services: map<ServiceId, Service>, counters: map<CounterId, Counter>,
                       patients: map<Phone, Patient>, staff: map<StaffId, Staff>, rs: seq<Request>)
    requires forall c :: c in counters ==> counters[c].service in services
    requires forall a, b :: a in counters && b in counters && a != b && counters[a].staff.Some? ==> counters[a].staff != counters[b].staff
    requires forall p :: p in patients ==> |p| == 10
    ensures var s := Run(Initial(services, counters, patients, staff), rs);
      && Valid(s)
      && OneServingPerCounter(s.entries)
      && OneLivePerPatient(s.entries)
  {
    RunPreservesValid(Initial(services, counters, patients, staff), rs);
  }
  /** One request with the two corrections applied: entering 'break'
      redistributes the counter's waiting patients, and an announcement may
      only name the caller's serving patient, who is auto-skipped on the
      third call. */
  function ApplyCorrected(s: State, r: Request): (s': State)
    ensures StepFrame(s, s')
  {
    match r
    case JoinRequest(p, svc, suffix) => JoinFrame(s, p, svc, suffix); Join(s, p, svc, suffix).state
    case ServeNextRequest(st) => ServeNextFrame(s, st); ServeNext(s, st).state
    case SkipRequest(st) => SkipFrame(s, st); Skip(s, st).state
    case StatusRequest(st, status) => StatusIntendedFrame(s, st, status); UpdateCounterStatusIntended(s, st, status).state
    case AnnounceRequest(st, qid) => AnnounceCheckedFrame(s, st, qid); AnnounceChecked(s, st, qid).state
  }

  lemma StatusIntendedFrame(s: State, st: Option<StaffId>, status: string)
    ensures StepFrame(s, UpdateCounterStatusIntended(s, st, status).state)
  {
  }

  lemma AnnounceCheckedFrame(s: State, st: Option<StaffId>, qid: QueueId)
    ensures StepFrame(s, AnnounceChecked(s, st, qid).state)
  {
    var t := AnnounceChecked(s, st, qid);
    WrittenStatusNames();
    assert |t.state.history| == |s.history| + 1 ==> t.state.history[|s.history|].status == "skipped";
  }

  function RunCorrected(s: State, rs: seq<Request>): (s': State)
    ensures s.history <= s'.history && |s'.history| <= |s.history| + |rs|
    ensures HistoryWrittenFrom(s'.history, |s.history|)
    ensures s'.services == s.services && s'.patients == s.patients && s'.staff == s.staff
    decreases |rs|
  {
    if |rs| == 0 then s else RunCorrected(ApplyCorrected(s, rs[0]), rs[1..])
  }

  lemma ApplyCorrectedPreservesValid(s: State, r: Request)
    requires Valid(s)
    ensures Valid(ApplyCorrected(s, r))
  {
    match r
    case JoinRequest(p, svc, suffix) => JoinPreservesValid(s, p, svc, suffix);
    case ServeNextRequest(st) => ServeNextPreservesValid(s, st);
    case SkipRequest(st) => SkipPreservesValid(s, st);
    case StatusRequest(st, status) => UpdateIntendedPreservesValid(s, st, status);
    case AnnounceRequest(st, qid) => AnnounceCheckedPreservesValid(s, st, qid);
  }

  /** The corrected handlers keep every invariant too. */
  lemma {:induction false} RunCorrectedPreservesValid(s: State, rs: seq<Request>)
    requires Valid(s)
    ensures Valid(RunCorrected(s, rs))
    decreases |rs|
  {
    if |rs| > 0 {
      ApplyCorrectedPreservesValid(s, rs[0]);
      RunCorrectedPreservesValid(ApplyCorrected(s, rs[0]), rs[1..]);
    }
  }
}

=== FILE: views.dfy ===
/** The request handlers of queue_app/views.py that drive the queue: each is
    one atomic transition from a state to a reply and a new state. The
    session identity (a patient's phone or a staff id), the POSTed values
    and the random suffix are parameters. */
module Views {
  import opened Wrappers
  import opened Models
  import opened Store
  import opened QueueIds

  /** The announcement count at which `announce_patient` tries to skip. */
  const AutoSkipThreshold: nat := 3

  datatype NextPatient = NextPatient(patient: Phone, queueId: QueueId)

  /** `serve_next` replies with the promoted patient or 'empty'. */
  datatype ServeReply = NowServing(next: NextPatient) | QueueEmpty

  /** `skip_patient` replies whether somebody was promoted. */
  datatype SkipReply = PatientSkipped(promoted: bool)

  /** `announce_patient` replies with the new count, or (on the intended
      auto-skip path) with the patient promoted in the skipped one's place. */
  datatype AnnounceReply = Announced(count: nat) | AutoSkipped(next: Option<NextPatient>)

  /** `update_counter_status` replies with a bare success. */
  datatype StatusReply = StatusUpdated

  /** The QueueHistory row written when an entry leaves the live table. */
  function ArchiveRecord(e: QueueEntry, c: CounterId, status: string): (h: HistoryRecord)
    ensures h.queueId == e.id && h.patient == e.patient && h.service == e.service
    ensures h.counter == c && h.status == status && h.created == e.created
  {
    HistoryRecord(e.id, e.patient, e.service, c, status, e.created)
  }

  function SetCounterStatus(counters: map<CounterId, Counter>, c: CounterId, st: CounterStatus): (r: map<CounterId, Counter>)
    requires c in counters
    ensures r.Keys == counters.Keys
    ensures r[c].status == st && r[c].service == counters[c].service && r[c].staff == counters[c].staff
    ensures forall d :: d in counters && d != c ==> r[d] == counters[d]
  {
    counters[c := counters[c].(status := st)]
  }

  /** Writes the history row for entry `i` and deletes it from the live table. */
  function Archive(s: State, i: nat, c: CounterId, status: string): (s': State)
    requires i < |s.entries|
    ensures s'.history == s.history + [ArchiveRecord(s.entries[i], c, status)]
    ensures s'.entries == RemoveAt(s.entries, i)
    ensures s'.counters == s.counters && s'.clock == s.clock
  {
    s.(entries := RemoveAt(s.entries, i), history := s.history + [ArchiveRecord(s.entries[i], c, status)])
  }

  /** Sets entry `j` to serving; nothing else about it changes. */
  function Promote(es: seq<QueueEntry>, j: nat): (r: seq<QueueEntry>)
    requires j < |es|
    ensures |r| == |es| && r[j].status == Serving
    ensures r[j] == es[j].(status := Serving)
    ensures forall k :: 0 <= k < |es| && k != j ==> r[k] == es[k]
  {
    es[j := es[j].(status := Serving)]
  }

  // ---------------------------------------------------------------- join

  /** The checks `join_queue` makes before it looks for a counter. */
  ghost predicate JoinAdmissible(s: State, caller: Option<Phone>, serviceId: Option<ServiceId>) {
    && caller.Some? && serviceId.Some?
    && caller.value in s.patients
    && (forall k :: 0 <= k < |s.entries| ==> !(s.entries[k].patient == caller.value && IsLive(s.entries[k])))
    && serviceId.value in s.services && s.services[serviceId.value].active
  }

  /** A successful join of patient `p` to service `svc` at counter `c`: `c` is
      the available counter of the service with the least id, the fresh id
      names exactly one new waiting entry bound to `c`, and the only other
      change is that `c` becomes busy. */
  ghost predicate JoinedAt(s: State, s': State, p: Phone, svc: ServiceId, c: CounterId, suffix: JoinSuffix, qid: QueueId) {
    && svc in s.services
    && c in s.counters && s.counters[c].service == svc && s.counters[c].status == Available
    && (forall d :: d in s.counters && s.counters[d].service == svc && s.counters[d].status == Available ==> c <= d)
    && qid == JoinQueueId(s.services[svc].name, c, suffix)
    && (forall k :: 0 <= k < |s.entries| ==> s.entries[k].id != qid)
    && s'.entries == s.entries + [QueueEntry(qid, p, svc, Some(c), Waiting, 0, s.clock)]
    && s'.counters == s.counters[c := s.counters[c].(status := Busy)]
    && s' == s.(entries := s'.entries, counters := s'.counters, clock := s.clock + 1)
  }

  /** `join_queue` (queue_app/views.py:154-222). */
  function Join(s: State, caller: Option<Phone>, serviceId: Option<ServiceId>, suffix: JoinSuffix): (t: Step<QueueId>)
    ensures t.result.Err? ==> t.state == s
    ensures t.state.services == s.services && t.state.patients == s.patients && t.state.staff == s.staff
    ensures t.state.history == s.history && t.state.counters.Keys == s.counters.Keys
    ensures s.clock <= t.state.clock <= s.clock + 1
    ensures caller.None? ==> t.result == Err(NotAuthenticated)
    ensures caller.Some? && serviceId.None? ==> t.result == Err(ServiceIdRequired)
    ensures caller.Some? && serviceId.Some? && caller.value !in s.patients ==> t.result == Err(PatientNotFound)
    ensures caller.Some? && serviceId.Some? && caller.value in s.patients
         && (exists k :: 0 <= k < |s.entries| && s.entries[k].patient == caller.value && IsLive(s.entries[k]))
         ==> t.result == Err(AlreadyQueued)
    ensures t.result == Err(ServiceNotAvailable) <==>
              && caller.Some? && serviceId.Some? && caller.value in s.patients
              && (forall k :: 0 <= k < |s.entries| ==> !(s.entries[k].patient == caller.value && IsLive(s.entries[k])))
              && (serviceId.value !in s.services || !s.services[serviceId.value].active)
    ensures t.result == Err(NoCounterAvailable) <==>
              JoinAdmissible(s, caller, serviceId)
              && forall c :: c in s.counters && s.counters[c].service == serviceId.value ==> s.counters[c].status != Available
    ensures t.result.Ok? ==> JoinAdmissible(s, caller, serviceId)
    ensures t.result.Ok? ==> exists c :: JoinedAt(s, t.state, caller.value, serviceId.value, c, suffix, t.result.value)
    ensures t.result == Err(DuplicateQueueId) ==> JoinAdmissible(s, caller, serviceId) && FirstAvailable(s.counters, serviceId.value).Some?
    ensures JoinAdmissible(s, caller, serviceId) && FirstAvailable(s.counters, serviceId.value).Some? ==>
              var qid := JoinQueueId(s.services[serviceId.value].name, FirstAvailable(s.counters, serviceId.value).value, suffix);
              && (t.result.Ok? <==> forall k :: 0 <= k < |s.entries| ==> s.entries[k].id != qid)
              && (t.result == Err(DuplicateQueueId) <==> exists k :: 0 <= k < |s.entries| && s.entries[k].id == qid)
  {
    if caller.None? then Step(Err(NotAuthenticated), s)
    else if serviceId.None? then Step(Err(ServiceIdRequired), s)
    else if caller.value !in s.patients then Step(Err(PatientNotFound), s)
    else if HasLiveEntry(s.entries, caller.value) then Step(Err(AlreadyQueued), s)
    else if serviceId.value !in s.services || !s.services[serviceId.value].active then Step(Err(ServiceNotAvailable), s)
    else match FirstAvailable(s.counters, serviceId.value)
      case None => Step(Err(NoCounterAvailable), s)
      case Some(c) =>
        var qid := JoinQueueId(s.services[serviceId.value].name, c, suffix);
        if FindEntry(s.entries, qid).Some? then Step(Err(DuplicateQueueId), s)
        else
          var entry := QueueEntry(qid, caller.value, serviceId.value, Some(c), Waiting, 0, s.clock);
          var s' := s.(entries := s.entries + [entry], counters := SetCounterStatus(s.counters, c, Busy), clock := s.clock + 1);
          assert JoinedAt(s, s', caller.value, serviceId.value, c, suffix, qid);
          Step(Ok(qid), s')
  }

  // ----------------------------------------------------------- serve_next

  /** The second half of `serve_next` (queue_app/views.py:316-339): promote
      the counter's oldest waiting entry and mark the counter busy, or mark it
      available when nobody waits. History is not touched. */
  function CallNext(s: State, c: CounterId): (t: Step<ServeReply>)
    requires c in s.counters
    ensures t.result.Ok?
    ensures t.state == s.(entries := t.state.entries, counters := t.state.counters)
    ensures t.state.counters.Keys == s.counters.Keys
    ensures forall d :: d in s.counters && d != c ==> t.state.counters[d] == s.counters[d]
    ensures t.state.counters[c] == s.counters[c].(status := t.state.counters[c].status)
    ensures t.result.value.QueueEmpty? <==> t.state.counters[c].status == Available
    ensures t.result.value.NowServing? ==> t.state.counters[c].status == Busy
    ensures t.result.value.QueueEmpty? <==> forall k :: 0 <= k < |s.entries| ==> !IsWaitingAt(s.entries[k], c)
    ensures t.result.value.QueueEmpty? ==> t.state.entries == s.entries
    ensures t.result.value.NowServing? ==>
              exists j: nat :: && IsOldestWaiting(s.entries, j, c) && t.state.entries == Promote(s.entries, j)
                          && t.result.value.next == NextPatient(s.entries[j].patient, s.entries[j].id)
  {
    match OldestWaiting(s.entries, Some(c))
    case Some(j) =>
      var next := NextPatient(s.entries[j].patient, s.entries[j].id);
      Step(Ok(NowServing(next)), s.(entries := Promote(s.entries, j), counters := SetCounterStatus(s.counters, c, Busy)))
    case None =>
      Step(Ok(QueueEmpty), s.(counters := SetCounterStatus(s.counters, c, Available)))
  }

  /** `serve_next` (queue_app/views.py:289-344): archive the counter's serving
      entry as 'completed', then promote its oldest waiting entry and mark the
      counter busy, or mark the counter available when nobody waits. */
  function ServeNext(s: State, caller: Option<StaffId>): (t: Step<ServeReply>)
    ensures CallerCounter(s, caller).Err? ==> t == Step(Err(CallerCounter(s, caller).error), s)
    ensures CallerCounter(s, caller).Ok? ==> t.result.Ok?
    ensures t.state.services == s.services && t.state.patients == s.patients && t.state.staff == s.staff
    ensures t.state.clock == s.clock && t.state.counters.Keys == s.counters.Keys
    ensures s.history <= t.state.history && |t.state.history| <= |s.history| + 1
    ensures |t.state.history| == |s.history| + 1 ==> t.state.history[|s.history|].status == "completed"
    ensures t.result.Ok? ==> var c := CallerCounter(s, caller).value;
              && (forall d :: d in s.counters && d != c ==> t.state.counters[d] == s.counters[d])
              && t.state.counters[c] == s.counters[c].(status := t.state.counters[c].status)
              && (t.result.value.QueueEmpty? <==> t.state.counters[c].status == Available)
              && (t.result.value.QueueEmpty? ==> forall k :: 0 <= k < |t.state.entries| ==> !IsWaitingAt(t.state.entries[k], c))
              && (t.result.value.NowServing? ==> t.state.counters[c].status == Busy)
              && (t.result.value.NowServing? ==>
                    exists k :: && 0 <= k < |t.state.entries|
                                && t.state.entries[k].id == t.result.value.next.queueId
                                && t.state.entries[k].patient == t.result.value.next.patient
                                && IsServingAt(t.state.entries[k], c))
    ensures t.result.Ok? ==> var c := CallerCounter(s, caller).value; var i := ServingOf(s.entries, c);
              var base := if i.Some? then RemoveAt(s.entries, i.value) else s.entries;
              && (i.Some? ==> t.state.history == s.history + [ArchiveRecord(s.entries[i.value], c, "completed")])
              && (i.None? ==> t.state.history == s.history)
              && (t.result.value.QueueEmpty? ==> t.state.entries == base)
              && (t.result.value.NowServing? ==>
                    exists j: nat :: && IsOldestWaiting(base, j, c) && t.state.entries == Promote(base, j)
                                && t.result.value.next == NextPatient(base[j].patient, base[j].id))
  {
    match CallerCounter(s, caller)
    case Err(e) => Step(Err(e), s)
    case Ok(c) =>
      var s1 := match ServingOf(s.entries, c)
        case Some(i) => Archive(s, i, c, "completed")
        case None => s;
      CallNext(s1, c)
  }

  // --------------------------------------------------------- skip_patient

  /** The second half of `skip_patient` (queue_app/views.py:422-435): promote
      the counter's oldest waiting entry, or mark the counter available when
      nobody waits. History is not touched. */
  function SkipNext(s: State, c: CounterId): (t: Step<SkipReply>)
    requires c in s.counters
    ensures t.result.Ok?
    ensures t.state == s.(entries := t.state.entries, counters := t.state.counters)
    ensures t.result.value.promoted <==> exists k :: 0 <= k < |s.entries| && IsWaitingAt(s.entries[k], c)
    ensures t.result.value.promoted ==> t.state.counters == s.counters
    ensures t.result.value.promoted ==>
              exists j: nat :: && IsOldestWaiting(s.entries, j, c) && t.state.entries == Promote(s.entries, j)
                               && IsServingAt(t.state.entries[j], c)
    ensures !t.result.value.promoted ==>
              t.state.entries == s.entries && t.state.counters == SetCounterStatus(s.counters, c, Available)
  {
    match OldestWaiting(s.entries, Some(c))
    case Some(j) => Step(Ok(PatientSkipped(true)), s.(entries := Promote(s.entries, j)))
    case None => Step(Ok(PatientSkipped(false)), s.(counters := SetCounterStatus(s.counters, c, Available)))
  }

  /** `skip_patient` (queue_app/views.py:393-444): archive the counter's
      serving entry as 'skipped' and promote its oldest waiting entry; only
      when nobody waits is the counter's status touched (set available). The
      posted queue id is not read. */
  function Skip(s: State, caller: Option<StaffId>): (t: Step<SkipReply>)
    ensures CallerCounter(s, caller).Err? ==> t == Step(Err(CallerCounter(s, caller).error), s)
    ensures (&& CallerCounter(s, caller).Ok?
             && forall k :: 0 <= k < |s.entries| ==> !IsServingAt(s.entries[k], CallerCounter(s, caller).value))
            ==> t == Step(Err(NoServingPatient), s)
    ensures (&& CallerCounter(s, caller).Ok?
             && exists k :: 0 <= k < |s.entries| && IsServingAt(s.entries[k], CallerCounter(s, caller).value))
            ==> t.result.Ok?
    ensures t.result.Err? ==> t.state == s
    ensures t.result.Ok? ==> var c := CallerCounter(s, caller).value;
              && (exists i :: 0 <= i < |s.entries| && IsServingAt(s.entries[i], c)
                    && t.state.history == s.history + [ArchiveRecord(s.entries[i], c, "skipped")])
              && |t.state.entries| == |s.entries| - 1
              && (t.result.value.promoted ==> t.state.counters == s.counters)
              && (!t.result.value.promoted ==> t.state.counters == SetCounterStatus(s.counters, c, Available))
              && (!t.result.value.promoted ==> forall k :: 0 <= k < |t.state.entries| ==> !IsWaitingAt(t.state.entries[k], c))
              && (t.result.value.promoted ==> exists k :: 0 <= k < |t.state.entries| && IsServingAt(t.state.entries[k], c))
    ensures t.result.Ok? ==> var c := CallerCounter(s, caller).value;
              && ServingOf(s.entries, c).Some?
              && var base := RemoveAt(s.entries, ServingOf(s.entries, c).value);
                 && (!t.result.value.promoted ==> t.state.entries == base)
                 && (t.result.value.promoted ==> exists j: nat :: IsOldestWaiting(base, j, c) && t.state.entries == Promote(base, j))
    ensures t.state.services == s.services && t.state.patients == s.patients && t.state.staff == s.staff
    ensures t.state.clock == s.clock
  {
    match CallerCounter(s, caller)
    case Err(e) => Step(Err(e), s)
    case Ok(c) =>
      match ServingOf(s.entries, c)
      case None => Step(Err(NoServingPatient), s)
      case Some(i) =>
        SkipNext(Archive(s, i, c, "skipped"), c)
  }

  // ------------------------------------------------ update_counter_status

  /** The statuses `update_counter_status` accepts; 'closed' is not among them. */
  predicate SettableStatus(requested: string) {
    requested == "available" || requested == "busy" || requested == "break"
  }

  /** The status a posted string asks for, when the view accepts it. */
  function RequestedStatus(requested: string): (r: Option<CounterStatus>)
    ensures r.Some? <==> SettableStatus(requested)
    ensures r.Some? ==> CounterStatusName(r.value) == requested && r.value != Closed
  {
    match ParseCounterStatus(requested)
    case Some(Closed) => None
    case parsed => parsed
  }

  /** `n` is where the redistribution block sends counter `c`'s waiting
      entries: the least-id available counter of `c`'s service above `c`. */
  ghost predicate IsRedistributionTarget(counters: map<CounterId, Counter>, c: CounterId, n: CounterId) {
    && c in counters && n in counters && n > c
    && counters[n].service == counters[c].service && counters[n].status == Available
    && forall d :: d in counters && d > c && counters[d].service == counters[c].service && counters[d].status == Available ==> n <= d
  }

  /** `es'` is `es` with exactly the waiting entries of `c` rebound to `n`. */
  ghost predicate Rebound(es: seq<QueueEntry>, es': seq<QueueEntry>, c: CounterId, n: CounterId) {
    && |es'| == |es|
    && forall k :: 0 <= k < |es| ==> es'[k] == if IsWaitingAt(es[k], c) then es[k].(counter := Some(n)) else es[k]
  }

  /** The redistribution block of `update_counter_status`
      (queue_app/views.py:367-379) taken on its own: every waiting entry of
      counter `c` is rebound to the available counter of the same service with
      the least id above `c`; nothing moves when there is none. */
  function Redistribute(s: State, c: CounterId): (s': State)
    ensures s'.counters == s.counters && s'.history == s.history && s'.clock == s.clock
    ensures s'.services == s.services && s'.patients == s.patients && s'.staff == s.staff
    ensures |s'.entries| == |s.entries|
    ensures forall k :: 0 <= k < |s.entries| ==> s'.entries[k].(counter := s.entries[k].counter) == s.entries[k]
    ensures forall k :: 0 <= k < |s.entries| && !IsWaitingAt(s.entries[k], c) ==> s'.entries[k] == s.entries[k]
    ensures forall n :: IsRedistributionTarget(s.counters, c, n) ==> Rebound(s.entries, s'.entries, c, n)
    ensures (forall n :: !IsRedistributionTarget(s.counters, c, n)) ==> s' == s
    ensures (c !in s.counters || forall d :: d in s.counters && d > c && s.counters[d].service == s.counters[c].service ==> s.counters[d].status != Available)
              ==> s' == s
    ensures (&& c in s.counters
             && exists d :: d in s.counters && d > c && s.counters[d].service == s.counters[c].service && s.counters[d].status == Available)
            ==> forall k :: 0 <= k < |s'.entries| ==> !IsWaitingAt(s'.entries[k], c)
  {
    if c !in s.counters then s
    else match NextAvailableAbove(s.counters, s.counters[c].service, c)
      case None => s
      case Some(n) =>
        assert IsRedistributionTarget(s.counters, c, n);
        s.(entries := seq(|s.entries|, k requires 0 <= k < |s.entries| =>
             if IsWaitingAt(s.entries[k], c) then s.entries[k].(counter := Some(n)) else s.entries[k]))
  }

  /** `update_counter_status` (queue_app/views.py:350-388) as written. The
      break test reads the counter after the new status has been stored, so
      `new_status == 'break' and counter.current_status != 'break'` is never
      true and the redistribution block is not reached. */
  function UpdateCounterStatus(s: State, caller: Option<StaffId>, requested: string): (t: Step<StatusReply>)
    ensures CallerCounter(s, caller).Err? ==> t == Step(Err(CallerCounter(s, caller).error), s)
    ensures CallerCounter(s, caller).Ok? && !SettableStatus(requested) ==> t == Step(Err(InvalidStatus), s)
    ensures t.result.Ok? <==> CallerCounter(s, caller).Ok? && SettableStatus(requested)
    ensures t.result.Ok? ==> var c := CallerCounter(s, caller).value;
              && t.state.counters.Keys == s.counters.Keys
              && CounterStatusName(t.state.counters[c].status) == requested
              && t.state.counters[c].(status := s.counters[c].status) == s.counters[c]
              && (forall d :: d in s.counters && d != c ==> t.state.counters[d] == s.counters[d])
              && t.state == s.(counters := t.state.counters)
  {
    match CallerCounter(s, caller)
    case Err(e) => Step(Err(e), s)
    case Ok(c) =>
      match RequestedStatus(requested)
      case None => Step(Err(InvalidStatus), s)
      case Some(st) =>
        var s1 := s.(counters := SetCounterStatus(s.counters, c, st));
        var saved := s1.counters[c];
        var s2 := if requested == "break" && saved.status != Break then Redistribute(s1, c) else s1;
        Step(Ok(StatusUpdated), s2)
  }

  // ----------------------------------------------------- announce_patient

  /** Raises entry `i`'s announcement count by one; nothing else changes. */
  function Bump(s: State, i: nat): (s': State)
    requires i < |s.entries|
    ensures s' == s.(entries := s'.entries) && |s'.entries| == |s.entries|
    ensures s'.entries == s.entries[i := s.entries[i].(announcements := s.entries[i].announcements + 1)]
    ensures forall k :: 0 <= k < |s.entries| ==>
              s'.entries[k] == s.entries[k].(announcements := s.entries[k].announcements + if k == i then 1 else 0)
  {
    s.(entries := s.entries[i := s.entries[i].(announcements := s.entries[i].announcements + 1)])
  }

  /** `announce_patient` (queue_app/views.py:543-595) as written. Only the
      session's presence is checked, not the staff row or the counter. The
      incremented count is saved first; from the third announcement on, the
      QueueHistory row is built with a keyword the model does not have
      (`status`) and without the required `updated_at`, so construction
      raises, the handler reports the error, and the saved increment stays. */
  function Announce(s: State, caller: Option<StaffId>, qid: QueueId): (t: Step<AnnounceReply>)
    ensures caller.None? ==> t == Step(Err(NotAuthenticated), s)
    ensures caller.Some? && (forall k :: 0 <= k < |s.entries| ==> s.entries[k].id != qid) ==> t == Step(Err(EntryNotFound), s)
    ensures t.state.history == s.history && t.state.counters == s.counters && t.state.clock == s.clock
    ensures t.state.services == s.services && t.state.patients == s.patients && t.state.staff == s.staff
    ensures |t.state.entries| == |s.entries|
    ensures forall k :: 0 <= k < |s.entries| ==> t.state.entries[k].(announcements := s.entries[k].announcements) == s.entries[k]
    ensures t.result.Ok? ==> t.result.value.Announced? && 0 < t.result.value.count < AutoSkipThreshold
    ensures t.result.Ok? ==>
              exists k :: && 0 <= k < |s.entries| && s.entries[k].id == qid
                          && t.result.value.count == s.entries[k].announcements + 1 == t.state.entries[k].announcements
    ensures t.result == Err(HistoryWriteFailed) <==>
              && caller.Some?
              && exists k :: && 0 <= k < |s.entries| && s.entries[k].id == qid
                             && (forall j :: 0 <= j < k ==> s.entries[j].id != qid)
                             && s.entries[k].announcements + 1 >= AutoSkipThreshold
    ensures caller.Some? && FindEntry(s.entries, qid).Some? ==>
              var i := FindEntry(s.entries, qid).value; var n := s.entries[i].announcements + 1;
              && t.state.entries == s.entries[i := s.entries[i].(announcements := n)]
              && (n < AutoSkipThreshold ==> t.result == Ok(Announced(n)))
              && (n >= AutoSkipThreshold ==> t.result == Err(HistoryWriteFailed))
  {
    if caller.None? then Step(Err(NotAuthenticated), s)
    else match FindEntry(s.entries, qid)
      case None => Step(Err(EntryNotFound), s)
      case Some(i) =>
        var n := s.entries[i].announcements + 1;
        var s1 := Bump(s, i);
        if n >= AutoSkipThreshold then Step(Err(HistoryWriteFailed), s1)
        else Step(Ok(Announced(n)), s1)
  }

  /** Only the first row with the queue id has its count raised, by one;
      every other row keeps its count. */
  lemma AnnounceRaisesFirstMatch(s: State, caller: StaffId, qid: QueueId)
    ensures var t := Announce(s, Some(caller), qid);
      forall k :: 0 <= k < |s.entries| ==>
        t.state.entries[k].announcements == s.entries[k].announcements +
          (if s.entries[k].id == qid && forall j :: 0 <= j < k ==> s.entries[j].id != qid then 1 else 0)
  {
    var t := Announce(s, Some(caller), qid);
    match FindEntry(s.entries, qid)
    case None =>
    case Some(i) =>
      forall k | 0 <= k < |s.entries|
        ensures t.state.entries[k].announcements == s.entries[k].announcements +
                  (if s.entries[k].id == qid && forall j :: 0 <= j < k ==> s.entries[j].id != qid then 1 else 0)
      {
        if k > i {
          assert s.entries[i].id == qid;
        }
      }
  }

  // ------------------------------------------------------- get_queue_data

  /** The serving patient as `get_queue_data` reports it. */
  datatype ServingView = ServingView(queueId: QueueId, patient: Phone, announcements: nat)

  /** The reply of `get_queue_data`. The view reports the break counter's
      name; the model reports its id. */
  datatype QueueView = QueueView(
    counterStatus: CounterStatus,
    serving: Option<ServingView>,
    waiting: seq<NextPatient>,
    handlingBreak: Option<CounterId>,
    queueCount: nat)

  lemma PrefixStampsBelowLast(es: seq<QueueEntry>)
    requires |es| > 0 && InCreationOrder(es)
    ensures forall x :: x in es[..|es| - 1] ==> x.created < es[|es| - 1].created
  {
    forall x | x in es[..|es| - 1]
      ensures x.created < es[|es| - 1].created
    {
      var k :| 0 <= k < |es| - 1 && es[..|es| - 1][k] == x;
      assert es[k] == x;
    }
  }

  /** `filter(counter=c, current_status='waiting')` in table order. */
  function WaitingEntries(es: seq<QueueEntry>, c: CounterId): (w: seq<QueueEntry>)
    ensures |w| == WaitingCount(es, c)
    ensures forall x :: x in w <==> x in es && IsWaitingAt(x, c)
  {
    if |es| == 0 then []
    else
      var last := es[|es| - 1];
      var rest := WaitingEntries(es[..|es| - 1], c);
      assert forall x :: x in es <==> x in es[..|es| - 1] || x == last;
      if IsWaitingAt(last, c) then rest + [last] else rest
  }

  /** When the table is in creation order, so is the waiting list; this is
      the `order_by('created_at')` of the view. */
  lemma {:induction false} WaitingEntriesInOrder(es: seq<QueueEntry>, c: CounterId)
    requires InCreationOrder(es)
    ensures InCreationOrder(WaitingEntries(es, c))
  {
    if |es| > 0 {
      var last := es[|es| - 1];
      var rest := WaitingEntries(es[..|es| - 1], c);
      WaitingEntriesInOrder(es[..|es| - 1], c);
      PrefixStampsBelowLast(es);
      assert forall x :: x in rest ==> x.created < last.created;
      if IsWaitingAt(last, c) {
        var w := rest + [last];
        assert WaitingEntries(es, c) == w;
        forall i, j | 0 <= i < j < |w|
          ensures w[i].created < w[j].created
        {
          if j == |w| - 1 {
            assert w[i] == rest[i] && w[i] in rest;
          } else {
            assert w[i] == rest[i] && w[j] == rest[j];
          }
        }
      } else {
        assert WaitingEntries(es, c) == rest;
      }
    }
  }

  lemma ShownWaiting(es: seq<QueueEntry>, c: CounterId, waiting: seq<QueueEntry>, shown: seq<NextPatient>)
    requires forall x :: x in waiting <==> x in es && IsWaitingAt(x, c)
    requires |shown| == |waiting|
    requires forall k :: 0 <= k < |waiting| ==> shown[k] == NextPatient(waiting[k].patient, waiting[k].id)
    ensures forall p :: p in shown <==> exists k :: 0 <= k < |es| && IsWaitingAt(es[k], c) && p == NextPatient(es[k].patient, es[k].id)
  {
    forall p | p in shown
      ensures exists k :: 0 <= k < |es| && IsWaitingAt(es[k], c) && p == NextPatient(es[k].patient, es[k].id)
    {
      var m :| 0 <= m < |shown| && shown[m] == p;
      assert waiting[m] in waiting;
      var k :| 0 <= k < |es| && es[k] == waiting[m];
    }
    forall k | 0 <= k < |es| && IsWaitingAt(es[k], c)
      ensures NextPatient(es[k].patient, es[k].id) in shown
    {
      assert es[k] in waiting;
      var m :| 0 <= m < |waiting| && waiting[m] == es[k];
      assert shown[m] == NextPatient(es[k].patient, es[k].id);
    }
  }

  /** `get_queue_data` (queue_app/views.py:483-539): the caller's counter,
      its serving entry, its waiting entries, and, when the counter is
      available, the break counter of the same service that it is taken to
      cover. Nothing is written. */
  function QueueData(s: State, caller: Option<StaffId>): (r: Result<QueueView, Error>)
    ensures CallerCounter(s, caller).Err? ==> r == Err(CallerCounter(s, caller).error)
    ensures CallerCounter(s, caller).Ok? ==> r.Ok?
    ensures r.Ok? ==> var c := CallerCounter(s, caller).value; var v := r.value;
      && v.counterStatus == s.counters[c].status
      && v.queueCount == |v.waiting| == WaitingCount(s.entries, c)
      && (forall k :: 0 <= k < |v.waiting| ==>
            v.waiting[k] == NextPatient(WaitingEntries(s.entries, c)[k].patient, WaitingEntries(s.entries, c)[k].id))
      && (forall p :: p in v.waiting <==> exists k :: 0 <= k < |s.entries| && IsWaitingAt(s.entries[k], c)
                                                   && p == NextPatient(s.entries[k].patient, s.entries[k].id))
      && (v.serving.None? <==> forall k :: 0 <= k < |s.entries| ==> !IsServingAt(s.entries[k], c))
      && (v.serving.Some? ==> exists k :: 0 <= k < |s.entries| && IsServingAt(s.entries[k], c)
                                  && v.serving.value == ServingView(s.entries[k].id, s.entries[k].patient, s.entries[k].announcements))
      && (s.counters[c].status != Available ==> v.handlingBreak.None?)
      && (v.handlingBreak.Some? ==> var b := v.handlingBreak.value;
            && b in s.counters && b < c && s.counters[b].service == s.counters[c].service && s.counters[b].status == Break
            && forall d :: d in s.counters && d < c && s.counters[d].service == s.counters[c].service && s.counters[d].status == Break ==> d <= b)
      && (s.counters[c].status == Available && v.handlingBreak.None? ==>
            forall d :: d in s.counters && d < c && s.counters[d].service == s.counters[c].service ==> s.counters[d].status != Break)
  {
    match CallerCounter(s, caller)
    case Err(e) => Err(e)
    case Ok(c) =>
      var counter := s.counters[c];
      var serving := match ServingOf(s.entries, c)
        case Some(i) => Some(ServingView(s.entries[i].id, s.entries[i].patient, s.entries[i].announcements))
        case None => None;
      var waiting := WaitingEntries(s.entries, c);
      var shown := seq(|waiting|, k requires 0 <= k < |waiting| => NextPatient(waiting[k].patient, waiting[k].id));
      ShownWaiting(s.entries, c, waiting, shown);
      var handling := if counter.status == Available then PreviousBreakCounter(s.counters, counter.service, c) else None;
      Ok(QueueView(counter.status, serving, shown, handling, |shown|))
  }
}

=== FILE: views_proofs.dfy ===
/** Every view of the queue preserves the store invariants, and the
    observable effect of each one under them. */
module ViewsProofs {
  import opened Wrappers
  import opened Models
  import opened Store
  import opened QueueIds
  import opened Invariants
  import opened Views

  lemma RemoveAtKeepsTable(es: seq<QueueEntry>, i: nat, clock: nat)
    requires i < |es| && TableValid(es, clock)
    ensures TableValid(RemoveAt(es, i), clock)
  {
    var r := RemoveAt(es, i);
    forall a, b | 0 <= a < b < |r|
      ensures r[a].id != r[b].id && r[a].created < r[b].created
      ensures r[a].status == Serving && r[b].status == Serving ==> r[a].counter != r[b].counter
      ensures IsLive(r[a]) && IsLive(r[b]) ==> r[a].patient != r[b].patient
    {
      var a' := if a < i then a else a + 1;
      var b' := if b < i then b else b + 1;
      assert r[a] == es[a'] && r[b] == es[b'] && a' < b';
    }
  }

  /** Once the counter's serving entry is archived, the counter serves nobody. */
  lemma RemoveServingLeavesNone(es: seq<QueueEntry>, i: nat, c: CounterId)
    requires i < |es| && OneServingPerCounter(es) && IsServingAt(es[i], c)
    ensures forall k :: 0 <= k < |es| - 1 ==> !IsServingAt(RemoveAt(es, i)[k], c)
  {
    var r := RemoveAt(es, i);
    forall k | 0 <= k < |r|
      ensures !IsServingAt(r[k], c)
    {
      var k' := if k < i then k else k + 1;
      assert r[k] == es[k'] && k' != i;
    }
  }

  lemma PromoteKeepsTable(es: seq<QueueEntry>, j: nat, c: CounterId, clock: nat)
    requires j < |es| && TableValid(es, clock) && IsWaitingAt(es[j], c)
    requires forall k :: 0 <= k < |es| ==> !IsServingAt(es[k], c)
    ensures TableValid(Promote(es, j), clock)
  {
  }

  lemma PromoteKeepsLinks(s: State, j: nat)
    requires j < |s.entries| && EntriesWellLinked(s)
    ensures EntriesWellLinked(s.(entries := Promote(s.entries, j)))
  {
    var es := Promote(s.entries, j);
    assert forall k :: 0 <= k < |es| ==> es[k].counter == s.entries[k].counter && es[k].patient == s.entries[k].patient && es[k].service == s.entries[k].service;
  }

  lemma ArchiveKeepsLinks(s: State, i: nat, c: CounterId, status: string)
    requires i < |s.entries| && EntriesWellLinked(s)
    ensures EntriesWellLinked(Archive(s, i, c, status))
  {
  }

  lemma AppendKeepsTable(es: seq<QueueEntry>, e: QueueEntry, clock: nat)
    requires TableValid(es, clock)
    requires e.created == clock && e.status == Waiting
    requires forall k :: 0 <= k < |es| ==> es[k].id != e.id
    requires forall k :: 0 <= k < |es| ==> !(es[k].patient == e.patient && IsLive(es[k]))
    ensures TableValid(es + [e], clock + 1)
  {
  }

  /** Changing a counter's status keeps every link and the staff binding. */
  lemma SetStatusKeepsLinks(s: State, c: CounterId, st: CounterStatus)
    requires c in s.counters
    requires EntriesWellLinked(s) && CountersWellLinked(s) && StaffOneToOne(s.counters)
    ensures var s' := s.(counters := SetCounterStatus(s.counters, c, st));
      EntriesWellLinked(s') && CountersWellLinked(s') && StaffOneToOne(s'.counters)
  {
    var s' := s.(counters := SetCounterStatus(s.counters, c, st));
    assert forall d :: d in s.counters ==> s'.counters[d].staff == s.counters[d].staff && s'.counters[d].service == s.counters[d].service;
  }

  lemma JoinPreservesValid(s: State, caller: Option<Phone>, serviceId: Option<ServiceId>, suffix: JoinSuffix)
    requires Valid(s)
    ensures Valid(Join(s, caller, serviceId, suffix).state)
  {
    var t := Join(s, caller, serviceId, suffix);
    if t.result.Ok? {
      var p, svc := caller.value, serviceId.value;
      var c :| JoinedAt(s, t.state, p, svc, c, suffix, t.result.value);
      var e := QueueEntry(t.result.value, p, svc, Some(c), Waiting, 0, s.clock);
      AppendKeepsTable(s.entries, e, s.clock);
      var s1 := s.(counters := SetCounterStatus(s.counters, c, Busy));
      SetStatusKeepsLinks(s, c, Busy);
      assert t.state == s1.(entries := s.entries + [e], clock := s.clock + 1);
    }
  }

  /** What the first half of `serve_next` leaves: a valid store in which the
      counter serves nobody. */
  function ServeNextArchived(s: State, c: CounterId): (s1: State)
    ensures s1.counters == s.counters && s1.services == s.services && s1.patients == s.patients
    ensures s1.staff == s.staff && s1.clock == s.clock
    ensures ServingOf(s.entries, c).None? ==> s1 == s
    ensures ServingOf(s.entries, c).Some? ==> s1.entries == RemoveAt(s.entries, ServingOf(s.entries, c).value)
  {
    match ServingOf(s.entries, c)
    case Some(i) => Archive(s, i, c, "completed")
    case None => s
  }

  /** `serve_next` is the promotion step run on the archived store. */
  lemma ServeNextIsCallNext(s: State, caller: Option<StaffId>, c: CounterId)
    requires CallerCounter(s, caller) == Ok(c)
    ensures ServeNext(s, caller) == CallNext(ServeNextArchived(s, c), c)
  {
  }

  lemma ServeNextArchivedValid(s: State, c: CounterId)
    requires Valid(s)
    ensures Valid(ServeNextArchived(s, c))
    ensures forall k :: 0 <= k < |ServeNextArchived(s, c).entries| ==> !IsServingAt(ServeNextArchived(s, c).entries[k], c)
  {
    match ServingOf(s.entries, c) {
      case Some(i) =>
        RemoveAtKeepsTable(s.entries, i, s.clock);
        RemoveServingLeavesNone(s.entries, i, c);
        ArchiveKeepsLinks(s, i, c, "completed");
      case None =>
    }
  }

  lemma ServeNextPreservesValid(s: State, caller: Option<StaffId>)
    requires Valid(s)
    ensures Valid(ServeNext(s, caller).state)
  {
    match CallerCounter(s, caller)
    case Err(_) =>
    case Ok(c) =>
      var s1 := ServeNextArchived(s, c);
      ServeNextArchivedValid(s, c);
      match OldestWaiting(s1.entries, Some(c)) {
        case Some(j) =>
          PromoteKeepsTable(s1.entries, j, c, s1.clock);
          PromoteKeepsLinks(s1, j);
          var s2 := s1.(entries := Promote(s1.entries, j));
          SetStatusKeepsLinks(s2, c, Busy);
          assert ServeNext(s, caller).state == s2.(counters := SetCounterStatus(s2.counters, c, Busy));
        case None =>
          SetStatusKeepsLinks(s1, c, Available);
          assert ServeNext(s, caller).state == s1.(counters := SetCounterStatus(s1.counters, c, Available));
      }
  }

  /** The state `skip_patient` leaves once it has archived entry `i`. */
  lemma SkipArchivedValid(s: State, c: CounterId, i: nat)
    requires Valid(s) && c in s.counters && i < |s.entries| && IsServingAt(s.entries[i], c)
    ensures var s1 := Archive(s, i, c, "skipped");
      Valid(match OldestWaiting(s1.entries, Some(c))
            case Some(j) => s1.(entries := Promote(s1.entries, j))
            case None => s1.(counters := SetCounterStatus(s1.counters, c, Available)))
  {
    var s1 := Archive(s, i, c, "skipped");
    RemoveAtKeepsTable(s.entries, i, s.clock);
    RemoveServingLeavesNone(s.entries, i, c);
    ArchiveKeepsLinks(s, i, c, "skipped");
    assert TableValid(s1.entries, s1.clock) && EntriesWellLinked(s1);
    assert CountersWellLinked(s1) && StaffOneToOne(s1.counters) && PhonesWellFormed(s1.patients);
    match OldestWaiting(s1.entries, Some(c)) {
      case Some(j) =>
        PromoteKeepsTable(s1.entries, j, c, s1.clock);
        PromoteKeepsLinks(s1, j);
      case None =>
        SetStatusKeepsLinks(s1, c, Available);
    }
  }

  lemma SkipPreservesValid(s: State, caller: Option<StaffId>)
    requires Valid(s)
    ensures Valid(Skip(s, caller).state)
  {
    match CallerCounter(s, caller)
    case Err(_) =>
    case Ok(c) =>
      match ServingOf(s.entries, c)
      case None =>
      case Some(i) =>
        SkipArchivedValid(s, c, i);
  }

  lemma UpdateCounterStatusPreservesValid(s: State, caller: Option<StaffId>, requested: string)
    requires Valid(s)
    ensures Valid(UpdateCounterStatus(s, caller, requested).state)
  {
    var t := UpdateCounterStatus(s, caller, requested);
    if t.result.Ok? {
      var c := CallerCounter(s, caller).value;
      SetStatusKeepsLinks(s, c, t.state.counters[c].status);
      assert t.state == s.(counters := SetCounterStatus(s.counters, c, t.state.counters[c].status));
    }
  }

  lemma AnnouncePreservesValid(s: State, caller: Option<StaffId>, qid: QueueId)
    requires Valid(s)
    ensures Valid(Announce(s, caller, qid).state)
  {
  }

  /** With distinct stamps the oldest waiting entry is unique, so the scan finds it. */
  lemma OldestWaitingFinds(es: seq<QueueEntry>, w: nat, c: CounterId, clock: nat)
    requires TableValid(es, clock) && IsOldestWaiting(es, w, c)
    ensures OldestWaiting(es, Some(c)) == Some(w)
  {
    var r := OldestWaiting(es, Some(c));
    assert r.Some? && es[r.value].created <= es[w].created;
  }

  /** Archiving a serving entry leaves the oldest waiting entry in place (one
      row earlier when it came after the archived row). */
  lemma OldestWaitingAfterRemoval(es: seq<QueueEntry>, i: nat, w: nat, c: CounterId, clock: nat)
    requires TableValid(es, clock) && i < |es| && es[i].status == Serving && IsOldestWaiting(es, w, c)
    ensures var w' := if w < i then w else w - 1;
      && RemoveAt(es, i)[w'] == es[w]
      && OldestWaiting(RemoveAt(es, i), Some(c)) == Some(w')
  {
    var r := RemoveAt(es, i);
    var w' := if w < i then w else w - 1;
    assert w != i;
    assert r[w'] == es[w];
    forall k | 0 <= k < |r| && IsWaitingAt(r[k], c)
      ensures r[w'].created <= r[k].created
    {
      var k' := if k < i then k else k + 1;
      assert r[k] == es[k'];
    }
    RemoveAtKeepsTable(es, i, clock);
    OldestWaitingFinds(r, w', c, clock);
  }

  /** Under the invariants a counter serves at most one row, so the query
      finds that row. */
  lemma ServingOfFinds(es: seq<QueueEntry>, c: CounterId, i: nat, clock: nat)
    requires TableValid(es, clock) && i < |es| && IsServingAt(es[i], c)
    ensures ServingOf(es, c) == Some(i)
  {
  }

  /** The promotion step changes statuses only: history and the ids of the
      live rows stay. */
  lemma CallNextKeepsIds(s: State, c: CounterId)
    requires c in s.counters
    ensures var t := CallNext(s, c);
      && t.state.history == s.history && |t.state.entries| == |s.entries|
      && forall k :: 0 <= k < |s.entries| ==> t.state.entries[k].id == s.entries[k].id
  {
    match OldestWaiting(s.entries, Some(c)) {
      case Some(j) =>
        assert CallNext(s, c).state.entries == Promote(s.entries, j);
      case None =>
    }
  }

  /** The promotion step promotes and reports the row the scan finds. */
  lemma CallNextPromotes(s: State, c: CounterId, w: nat)
    requires c in s.counters && OldestWaiting(s.entries, Some(c)) == Some(w)
    ensures var t := CallNext(s, c);
      && t.result == Ok(NowServing(NextPatient(s.entries[w].patient, s.entries[w].id)))
      && t.state.entries == Promote(s.entries, w)
      && t.state.counters[c].status == Busy
  {
  }

  /** `serve_next` writes the counter's serving entry to history as
      'completed' and removes it from the live table; without one, history is
      untouched. */
  lemma ServeNextArchivesServing(s: State, caller: Option<StaffId>, c: CounterId)
    requires Valid(s) && CallerCounter(s, caller) == Ok(c)
    ensures var t := ServeNext(s, caller);
      && (forall i :: 0 <= i < |s.entries| && IsServingAt(s.entries[i], c) ==>
            && t.state.history == s.history + [ArchiveRecord(s.entries[i], c, "completed")]
            && forall k :: 0 <= k < |t.state.entries| ==> t.state.entries[k].id != s.entries[i].id)
      && ((forall i :: 0 <= i < |s.entries| ==> !IsServingAt(s.entries[i], c)) ==> t.state.history == s.history)
  {
    var s1 := ServeNextArchived(s, c);
    var t := CallNext(s1, c);
    ServeNextIsCallNext(s, caller, c);
    CallNextKeepsIds(s1, c);
    forall i | 0 <= i < |s.entries| && IsServingAt(s.entries[i], c)
      ensures t.state.history == s.history + [ArchiveRecord(s.entries[i], c, "completed")]
      ensures forall k :: 0 <= k < |t.state.entries| ==> t.state.entries[k].id != s.entries[i].id
    {
      ServingOfFinds(s.entries, c, i, s.clock);
      forall k | 0 <= k < |t.state.entries|
        ensures t.state.entries[k].id != s.entries[i].id
      {
        var k' := if k < i then k else k + 1;
        assert s1.entries[k] == s.entries[k'] && k' != i;
      }
    }
  }

  /** `serve_next` promotes the counter's oldest waiting entry, reports it,
      and marks the counter busy; the live table is the old one less the
      archived row, with that one entry promoted. */
  lemma ServeNextPromotesOldest(s: State, caller: Option<StaffId>, c: CounterId, w: nat)
    requires Valid(s) && CallerCounter(s, caller) == Ok(c) && IsOldestWaiting(s.entries, w, c)
    ensures var t := ServeNext(s, caller);
      && t.result == Ok(NowServing(NextPatient(s.entries[w].patient, s.entries[w].id)))
      && t.state.counters[c].status == Busy
      && (forall i :: 0 <= i < |s.entries| && IsServingAt(s.entries[i], c) ==>
            t.state.entries == Promote(RemoveAt(s.entries, i), if w < i then w else w - 1))
      && ((forall i :: 0 <= i < |s.entries| ==> !IsServingAt(s.entries[i], c)) ==> t.state.entries == Promote(s.entries, w))
  {
    var s1 := ServeNextArchived(s, c);
    ServeNextIsCallNext(s, caller, c);
    match ServingOf(s.entries, c) {
      case None =>
        OldestWaitingFinds(s.entries, w, c, s.clock);
        CallNextPromotes(s1, c, w);
      case Some(i) =>
        OldestWaitingAfterRemoval(s.entries, i, w, c, s.clock);
        CallNextPromotes(s1, c, if w < i then w else w - 1);
    }
    forall i | 0 <= i < |s.entries| && IsServingAt(s.entries[i], c)
      ensures ServeNext(s, caller).state.entries == Promote(RemoveAt(s.entries, i), if w < i then w else w - 1)
    {
      ServingOfFinds(s.entries, c, i, s.clock);
    }
  }

  /** `serve_next` with nobody waiting marks the counter available and reports
      an empty queue; the live table only loses the archived row. */
  lemma ServeNextEmpty(s: State, caller: Option<StaffId>, c: CounterId)
    requires Valid(s) && CallerCounter(s, caller) == Ok(c)
    requires forall k :: 0 <= k < |s.entries| ==> !IsWaitingAt(s.entries[k], c)
    ensures ServeNext(s, caller).result == Ok(QueueEmpty)
    ensures ServeNext(s, caller).state.counters[c].status == Available
    ensures forall i :: 0 <= i < |s.entries| && IsServingAt(s.entries[i], c) ==>
              ServeNext(s, caller).state.entries == RemoveAt(s.entries, i)
    ensures (forall i :: 0 <= i < |s.entries| ==> !IsServingAt(s.entries[i], c)) ==> ServeNext(s, caller).state.entries == s.entries
  {
    match ServingOf(s.entries, c) {
      case None =>
      case Some(i) =>
        var r := RemoveAt(s.entries, i);
        forall k | 0 <= k < |r|
          ensures !IsWaitingAt(r[k], c)
        {
          var k' := if k < i then k else k + 1;
          assert r[k] == s.entries[k'];
        }
    }
  }

  /** `skip_patient` promotes the counter's oldest waiting entry after the
      skip, and leaves the counter's status as it was; the live table is the
      old one less the skipped row, with that one entry promoted. */
  lemma SkipPromotesOldest(s: State, caller: Option<StaffId>, c: CounterId, i: nat, w: nat)
    requires Valid(s) && CallerCounter(s, caller) == Ok(c)
    requires i < |s.entries| && IsServingAt(s.entries[i], c) && IsOldestWaiting(s.entries, w, c)
    ensures var t := Skip(s, caller);
      && t.result == Ok(PatientSkipped(true))
      && t.state.history == s.history + [ArchiveRecord(s.entries[i], c, "skipped")]
      && t.state.counters == s.counters
      && t.state.entries == Promote(RemoveAt(s.entries, i), if w < i then w else w - 1)
  {
    var t := Skip(s, caller);
    var base := RemoveAt(s.entries, i);
    assert ServingOf(s.entries, c) == Some(i);
    OldestWaitingAfterRemoval(s.entries, i, w, c, s.clock);
    assert t.result.value.promoted;
    var j: nat :| IsOldestWaiting(base, j, c) && t.state.entries == Promote(base, j);
    RemoveAtKeepsTable(s.entries, i, s.clock);
    OldestWaitingFinds(base, j, c, s.clock);
  }

  /** Under the invariants, `announce_patient` raises the count of exactly
      the entry with that queue id by one; it answers 'announced' below the
      threshold and fails from the threshold on, keeping the increment. */
  lemma AnnounceBumpsOne(s: State, caller: StaffId, i: nat)
    requires Valid(s) && i < |s.entries|
    ensures var t := Announce(s, Some(caller), s.entries[i].id);
      var n := s.entries[i].announcements + 1;
      && t.state == s.(entries := s.entries[i := s.entries[i].(announcements := n)])
      && (n < AutoSkipThreshold ==> t.result == Ok(Announced(n)))
      && (n >= AutoSkipThreshold ==> t.result == Err(HistoryWriteFailed))
  {
    assert FindEntry(s.entries, s.entries[i].id) == Some(i);
  }
  /** `join_queue` only ever picks an available counter and marks it busy,
      so when a service has a single available counter, a second patient's
      join right after a successful one finds no counter. */
  lemma SecondJoinFindsNoCounter(s: State, p1: Phone, p2: Phone, svc: ServiceId, r1: JoinSuffix, r2: JoinSuffix)
    requires Join(s, Some(p1), Some(svc), r1).result.Ok?
    requires forall c, d ::
               (&& c in s.counters && d in s.counters
                && s.counters[c].service == svc && s.counters[c].status == Available
                && s.counters[d].service == svc && s.counters[d].status == Available)
               ==> c == d
    requires p2 in s.patients && p2 != p1
    requires forall k :: 0 <= k < |s.entries| ==> !(s.entries[k].patient == p2 && IsLive(s.entries[k]))
    ensures Join(Join(s, Some(p1), Some(svc), r1).state, Some(p2), Some(svc), r2).result == Err(NoCounterAvailable)
  {
    var t := Join(s, Some(p1), Some(svc), r1);
    var c :| JoinedAt(s, t.state, p1, svc, c, r1, t.result.value);
    var s' := t.state;
    assert forall k :: 0 <= k < |s'.entries| ==> !(s'.entries[k].patient == p2 && IsLive(s'.entries[k])) by {
      forall k | 0 <= k < |s'.entries|
        ensures !(s'.entries[k].patient == p2 && IsLive(s'.entries[k]))
      {
        if k < |s.entries| { assert s'.entries[k] == s.entries[k]; }
      }
    }
    assert JoinAdmissible(s', Some(p2), Some(svc));
    assert forall d :: d in s'.counters && s'.counters[d].service == svc ==> s'.counters[d].status != Available;
  }
  /** The head of an ordered waiting list is the oldest waiting entry of
      the table. */
  lemma WaitingHeadIsOldest(es: seq<QueueEntry>, c: CounterId) returns (w: nat)
    requires InCreationOrder(es) && |WaitingEntries(es, c)| > 0
    ensures IsOldestWaiting(es, w, c) && es[w] == WaitingEntries(es, c)[0]
  {
    var waiting := WaitingEntries(es, c);
    WaitingEntriesInOrder(es, c);
    assert waiting[0] in waiting;
    w :| 0 <= w < |es| && es[w] == waiting[0];
    forall k | 0 <= k < |es| && IsWaitingAt(es[k], c)
      ensures es[w].created <= es[k].created
    {
      assert es[k] in waiting;
      var m :| 0 <= m < |waiting| && waiting[m] == es[k];
      if m > 0 {
        assert waiting[0].created < waiting[m].created;
      }
    }
  }

  /** The patient `get_queue_data` lists first is the one `serve_next` calls
      next: the listing is oldest first, and serving takes the oldest. */
  lemma QueueDataHeadIsServedNext(s: State, caller: Option<StaffId>)
    requires Valid(s) && QueueData(s, caller).Ok? && |QueueData(s, caller).value.waiting| > 0
    ensures ServeNext(s, caller).result == Ok(NowServing(QueueData(s, caller).value.waiting[0]))
  {
    var c := CallerCounter(s, caller).value;
    var waiting := WaitingEntries(s.entries, c);
    assert QueueData(s, caller).value.waiting[0] == NextPatient(waiting[0].patient, waiting[0].id);
    var w := WaitingHeadIsOldest(s.entries, c);
    ServeNextPromotesOldest(s, caller, c, w);
  }

  /** In a table in creation order, each listed waiting row is a row of the
      table, and a row listed earlier was created earlier. */
  lemma WaitingEntriesOldestFirst(es: seq<QueueEntry>, c: CounterId, a: nat, b: nat) returns (ka: nat, kb: nat)
    requires InCreationOrder(es) && a < b < |WaitingEntries(es, c)|
    ensures ka < |es| && kb < |es| && es[ka] == WaitingEntries(es, c)[a] && es[kb] == WaitingEntries(es, c)[b]
    ensures IsWaitingAt(es[ka], c) && IsWaitingAt(es[kb], c) && es[ka].created < es[kb].created
  {
    var w := WaitingEntries(es, c);
    WaitingEntriesInOrder(es, c);
    assert w[a] in w && w[b] in w;
    ka :| 0 <= ka < |es| && es[ka] == w[a];
    kb :| 0 <= kb < |es| && es[kb] == w[b];
  }

  /** Every listed patient stands for a waiting row of counter `c`, and of
      two listed patients the one listed first has the older row. */
  ghost predicate ListedOldestFirst(es: seq<QueueEntry>, c: CounterId, shown: seq<NextPatient>) {
    forall a, b :: 0 <= a < b < |shown| ==>
      exists ka, kb :: && 0 <= ka < |es| && 0 <= kb < |es|
                       && IsWaitingAt(es[ka], c) && IsWaitingAt(es[kb], c)
                       && shown[a] == NextPatient(es[ka].patient, es[ka].id)
                       && shown[b] == NextPatient(es[kb].patient, es[kb].id)
                       && es[ka].created < es[kb].created
  }

  lemma ShownOldestFirst(es: seq<QueueEntry>, c: CounterId, shown: seq<NextPatient>)
    requires InCreationOrder(es) && |shown| == |WaitingEntries(es, c)|
    requires forall k :: 0 <= k < |shown| ==> shown[k] == NextPatient(WaitingEntries(es, c)[k].patient, WaitingEntries(es, c)[k].id)
    ensures ListedOldestFirst(es, c, shown)
  {
    forall a, b | 0 <= a < b < |shown|
      ensures exists ka, kb :: && 0 <= ka < |es| && 0 <= kb < |es|
                               && IsWaitingAt(es[ka], c) && IsWaitingAt(es[kb], c)
                               && shown[a] == NextPatient(es[ka].patient, es[ka].id)
                               && shown[b] == NextPatient(es[kb].patient, es[kb].id)
                               && es[ka].created < es[kb].created
    {
      var ka, kb := WaitingEntriesOldestFirst(es, c, a, b);
    }
  }

  /** `get_queue_data` lists the waiting patients oldest first
      (`order_by('created_at')`). */
  lemma QueueDataOldestFirst(s: State, caller: Option<StaffId>)
    requires InCreationOrder(s.entries) && QueueData(s, caller).Ok?
    ensures ListedOldestFirst(s.entries, CallerCounter(s, caller).value, QueueData(s, caller).value.waiting)
  {
    ShownOldestFirst(s.entries, CallerCounter(s, caller).value, QueueData(s, caller).value.waiting);
  }
}

=== FILE: wrappers.dfy ===
/** Failure-carrying values shared by the model: an optional value and a
    success-or-error result, used in place of the source's `None` and its
    exceptions. */
module Wrappers {

  datatype Option<+T> = None | Some(value: T)

  datatype Result<+T, +E> = Ok(value: T) | Err(error: E)
}
